=== FILE: README.md ===
# Lookout, modelled in Dafny

Lookout reads the NationStates region census (the "dump"), merges it with the
lists of password-protected and founderless regions, estimates for every region
how far into the minor and the major update it is reached, and marks which
regions are valid targets in a spreadsheet. This project models the pure part
of that program:

- `objects.dfy` (module `Objects`): the `Region` record of `model/objects.py`,
  its `no_delegate` and `valid_target` predicates, the four property setters,
  and the truth table of the target rule.
- `dump.dfy` (module `Dump`): what `parse_dump` does to one census entry
  (vacant officers, the formula-character strip of the factbook, the executive
  flags, and the errors an empty element raises), and the reading of the whole
  census.
- `clock.dfy` (module `Clock`): the `S:M:H` text of an offset, with a reader
  that recovers the offset from the text.
- `schedule.dfy` (module `Schedule`): the status-list merge and the population
  total, the `cnations` prefix, the major-pass length, and the truncated offsets
  written into `minorup` and `majorup`.
- `report.dfy` (module `Report`): the label in each row's first cell, the fill
  chosen for each region, and the rows of the sheet.
- `spreadsheet.dfy` (module `Spreadsheet`): the colours of the three fills,
  the world data cells `M2` to `M8`, the sheet rows the region rows and their fills land on, the lookup of the
  sheet by its title, and the report stage, each both as the code has it and
  as it is evidently meant (see "## Findings").
- `lookout.dfy` (module `Lookout`): the whole pure path of `main()`, as meant
  and as written.
- `outcome.dfy` (module `Outcome`): `Option` for Python's `None`, `Result` for
  an exception that ends the run.

Behaviour of the code that the model keeps as it is:

- The target rule holds on 7 of the 16 combinations of its four flags: the
  disjunction fails only for an executive founder without an executive
  delegate or a founderless tag, and the outer `passworded` conjunct keeps half
  of the remaining 14 rows (`Objects.SevenValidRows`).
- A negative major-pass length (last region updated before the first) is not
  rejected: the code divides with it like any other length, and `int()`
  truncates the negative quotient toward zero (`Schedule.TruncDiv`).
- An empty census, or a census with no nations, fails with Python's own
  errors (`IndexError` at `regions[0]`, `ZeroDivisionError` at the first
  estimate); they are `NoRegions` and `NoNations` here.
- ElementTree gives `None` as the text of an empty element. An empty
  factbook therefore raises `TypeError` at `wfe[0]` (and a factbook text of
  length 0 would raise `IndexError` there); an empty authority element raises
  `TypeError` at the search for `X`. These are the entry faults
  `FactbookMissing`, `DelegateAuthMissing` and `FounderAuthMissing`, met in
  that order. An empty delegate or founder element stays `None`, that is,
  vacant, like the text "0".
- The green fill of the report can never be chosen: it needs a valid target
  that is not passworded, and a valid target is always passworded. The model
  keeps the branch as written and proves it dead (`Report.RowFill`).

## Model

| member | source | states |
|---|---|---|
| Objects.Region.NoDelegate | model/objects.py:22-24 | a region has no functional delegate exactly when its delegate is absent; `Dump.NoDelegateIffVacant` ties this to the census text |
| Objects.Region.ValidTarget | model/objects.py:26-30 | the target rule over the four flags; `passworded` is an outer conjunct, so every valid target is passworded |
| Objects.Region.SetFounderless | model/objects.py:32-38 | after the setter the getter returns the value set, and restoring the old flag gives back the original record: no other field changes |
| Objects.Region.SetPassworded | model/objects.py:40-46 | after the setter the getter returns the value set, and no other field changes |
| Objects.Region.SetMinorUp | model/objects.py:48-54 | after the setter the getter returns the text set, and no other field changes |
| Objects.Region.SetMajorUp | model/objects.py:56-62 | after the setter the getter returns the text set, and no other field changes |
| Objects.RejectedExactly | model/objects.py:26-30 | a region is rejected exactly when it is not passworded, or its founder is executive while its delegate is not executive and it does not carry the founderless tag |
| Objects.ValidTargetReadsOnlyFlags | model/objects.py:5-30 | two regions that agree on the four flags get the same verdict, whatever their name, factbook, population, officers, votes, embassies or update time |
| Objects.Row | model/objects.py:27-30 | the truth-table row index encodes the founder flag in its high bit and the password flag in its low bit |
| Objects.RowsEnumerateFlags | model/objects.py:27-30 | every combination of the four flags is a row of the 16-row table |
| Objects.RowsDistinct | model/objects.py:27-30 | no two rows of the table are the same combination |
| Objects.SevenValidRows | model/objects.py:27-30 | exactly 7 of the 16 flag combinations are valid targets |
| Dump.OfficerOrVacant | main.py:107-110 | an officer is absent exactly when the census element is empty or holds "0"; any other text is kept as it is |
| Dump.StripFormulaLead | main.py:100-102 | a factbook starting with `=`, `+`, `-` or `@` loses exactly that one character (the raw text is that character followed by the result); any other factbook is kept |
| Dump.HasExecutive | main.py:103-106 | an authority string grants executive powers exactly when some position holds `X` |
| Dump.Normalise | main.py:84-110 | an entry fails on an empty factbook, else on an empty delegate authority, else on an empty founder authority, each exactly in its case; otherwise it gives a region with the same name, population, votes, embassies and update time, vacant officers for "0" or an empty element, the factbook stripped of one formula character, executive flags from the authority strings, both status flags false and no estimates |
| Dump.ParseDump | main.py:80-111 | the census reads as one region per entry in order exactly when every entry can be read; otherwise the error names the first faulty entry and its fault |
| Dump.NoDelegateIffVacant | main.py:107-108 | a parsed region has no delegate exactly when the census delegate element is empty or holds "0" |
| Dump.StripExamples | main.py:100-110 | "==x" becomes "=x", "=SUM(A1)" becomes "SUM(A1)", "x=" is kept, and "00" and "0 " are real officers |
| Clock.Reading | main.py:191 | an offset splits into seconds and minutes below 60 and unbounded hours that add back up to the offset |
| Clock.ReadingUnique | main.py:191 | that split is the only one with seconds and minutes below 60 |
| Clock.NatText | main.py:191 | a number's text is a non-empty string of digits; it starts with 0 only when it is the text "0" of the number 0 |
| Clock.NatTextRoundTrip | main.py:191 | the decimal value of a number's text is the number |
| Clock.ParseNatText | main.py:191 | reading back a number's text gives the number |
| Clock.IntText | main.py:191-193 | Python's text of an integer, with a minus sign for a negative one (a negative major pass gives negative parts); its meaning is given by `Clock.ParseIntText` |
| Clock.ParseIntText | main.py:191-193 | reading back the text of any integer gives that integer, sign included |
| Clock.ClockText | main.py:191-193 | the `S:M:H` text of an offset: seconds, minutes and hours joined by colons; its meaning is given by `Clock.ClockTextRoundTrip` |
| Clock.ClockTextRoundTrip | main.py:191-193 | reading back the `S:M:H` text gives the three parts of the offset, and so the offset itself |
| Clock.ClockTextZero | main.py:191-193 | an offset whose three parts are all zero reads "0:0:0" |
| Clock.ClockTextExample | main.py:191 | 3661 seconds read "1:1:1" |
| Clock.ClockTextNoDays | main.py:193 | 90000 seconds read "0:0:25": hours are not carried into days |
| Schedule.Population | main.py:163-170 | the census total `CumulNations`: the sum of the regions' nations; `Schedule.PrefixIsPopulation` and `Schedule.MergePreservesPopulation` state its properties |
| Schedule.MajorLength | main.py:180-183 | the major pass: seconds from the first region's update to the last one's; `Schedule.Estimate` measures it and `Schedule.SingleRegion` and `Schedule.WorkedExample` give its values |
| Schedule.Listed | main.py:164-168 | one region after the merge: each flag raised when the name is on its list, nothing else changed |
| Schedule.MergedIsListed | main.py:164-168 | the merge relation of one region leaves exactly one possible result |
| Schedule.MergeFlags | main.py:162-170 | the merge keeps order and count, raises a flag exactly when the name is listed, changes nothing else, and totals the nations |
| Schedule.MergedFlagsFollowLists | main.py:164-168 | for freshly parsed regions a flag is set after the merge exactly when the name is on its list |
| Schedule.MergePreservesPopulation | main.py:164-170 | the merge leaves the census population unchanged |
| Schedule.CumulativeNations | main.py:172-178 | the prefix has one more entry than the census, starts at 0, grows by each region's nations, and each entry is the population before that region; the fallback branch never runs |
| Schedule.PrefixIsPopulation | main.py:173-178 | any sequence with the prefix recurrence holds at each position the population of the regions before it |
| Schedule.PrefixMonotone | main.py:173-178 | the prefix never decreases |
| Schedule.PrefixEnds | main.py:173-178 | the last prefix entry is the census total, and the last region's entry is the total less its own nations |
| Schedule.TruncDiv | main.py:190-192 | `int()` of a quotient; `Schedule.TruncDivBounds` states that it truncates toward zero |
| Schedule.TruncDivBounds | main.py:190 | `int()` of a quotient truncates toward zero: the result has the dividend's sign and is the multiple of the divisor nearest the dividend on the side of zero |
| Schedule.UpdateOffset | main.py:190-192 | the truncated offset `int(n * L / total)`; `Schedule.OffsetIsFloor`, `Schedule.OffsetMonotone` and `Schedule.OffsetWithinPass` state its properties |
| Schedule.OffsetIsFloor | main.py:189-192 | with a non-negative pass length the offset is the floor of prefix times length over total |
| Schedule.OffsetOfFirst | main.py:189-192 | the first region is estimated at offset 0 |
| Schedule.OffsetMonotone | main.py:189-192 | with a non-negative length, a larger prefix never gives an earlier offset |
| Schedule.OffsetWithinPass | main.py:189-192 | with a non-negative length, a prefix within the census gives an offset within the pass |
| Schedule.WithEstimates | main.py:189-193 | a region gets the `S:M:H` texts of its two truncated offsets, and nothing else changes |
| Schedule.EstimatesReadBack | main.py:189-193 | the estimate texts written for a region read back as the three parts of its two truncated offsets, so the sheet loses nothing of the estimate |
| Schedule.Annotate | main.py:188-193 | every region, in order, is paired with its own prefix entry and gets the texts of its offsets; nothing else changes |
| Schedule.MergedPrefix | main.py:164-178 | the prefix of the merged regions is the prefix of the parsed census |
| Schedule.SurveyFromSteps | main.py:161-193 | merging, totalling, the prefix and the major length together give the survey of the census |
| Schedule.Estimate | main.py:161-193 | the estimator fails exactly on an empty census or one without nations, with the no-region error exactly on the empty one; otherwise it keeps order and count, merges the flags, totals the nations, builds the prefix, measures the major pass from the first and last update times, uses 2640 seconds for the minor pass, and writes each region's offset texts |
| Schedule.ScheduleOrdered | main.py:180-193 | with a non-negative major length both estimates start at 0, never decrease along the census, and stay within their pass |
| Schedule.StartText | main.py:189-193 | the prefix 0 is written "0:0:0" for a pass of any length |
| Schedule.FirstRegionTexts | main.py:188-193 | in an estimated survey, a region with nobody before it carries "0:0:0" for both passes |
| Schedule.SingleRegion | main.py:180-193 | estimating a census of one region measures a major pass of 0 seconds and writes "0:0:0" for both of its estimates |
| Schedule.ThreeHundredOfAThousand | main.py:189-193 | a prefix of 300 out of 1000 nations is written "0:5:0" over a 1000-second pass and "12:13:0" over the 2640-second minor pass |
| Schedule.WorkedExample | main.py:172-193 | estimating populations 100, 200, 700 whose update times span 1000 seconds gives the third region the prefix 300, a total of 1000, a 1000-second major pass, and the texts "0:5:0" and "12:13:0" |
| Report.Label | main.py:242 | the name with `~` for a valid target, `*` for another passworded region, nothing for a region without password |
| Report.LabelRoundTrip | main.py:242 | the label gives back whether the region is a valid target and whether it is passworded |
| Report.RowFill | main.py:255 | red exactly when not a valid target, never green, yellow for every valid target |
| Report.MakeRow | main.py:240-255 | a region's row shows its nations beside the given running total, its two estimate texts, the region's label (`name~`, `*` or nothing) and the region's fill (never green); the label reads back as its target decision and password flag, and the fill is red exactly when the label shows no valid target |
| Report.Rows | main.py:239-255 | one row per region in order: its label, its nations beside the population of the regions before it, its two estimate texts, and its own region's fill, never green, red exactly when not a valid target |
| Spreadsheet.WorldCellsAsWritten | main.py:216-222 | the world cells as written fail exactly when the total, the major length or the minor length is 0, at `M5` when only the major length is; otherwise they hold the total, both lengths, both seconds per nation, and their reciprocals |
| Spreadsheet.WorldCells | main.py:216-222 | the meant world cells fail only on a zero total or minor length, leave `M5` blank exactly for a major pass of no length, and equal the written cells wherever those exist |
| Spreadsheet.Retitle | main.py:258 | the renaming that corrects the lookup: giving the active sheet a title changes that title and no other |
| Spreadsheet.SheetIndex | main.py:258 | `wb[title]` finds the first sheet with the title, and raises `KeyError` exactly when no sheet has it |
| Spreadsheet.DataSheetMissing | main.py:196-258 | a new workbook has no sheet titled "Lookout Data", so the lookup raises `KeyError` |
| Spreadsheet.RetitledSheetFound | main.py:196-258 | once the active sheet, and no sheet before it, is titled "Lookout Data", the lookup finds the active sheet |
| Spreadsheet.HighestBeforeRegions | main.py:205-236 | the cells written before the region rows reach down to row 11 |
| Spreadsheet.CurrentRow | main.py:205-255 | the worksheet's current row before region `i` is appended, the highest row touched so far, is row `11 + i` |
| Spreadsheet.DataRow | main.py:239-253 | `ws.append` writes region `i` on row `12 + i`, below the world cells |
| Spreadsheet.FillsAsWritten | main.py:254-255 | as written the fills sit on rows 2 to one past the number of regions, region `i`'s on row `i + 2` |
| Spreadsheet.FillsMissTheirRows | main.py:239-255 | as written no fill lands on its own region's row: the first ten colour cells no region was written to, region `j`'s label carries region `j + 10`'s fill, and the last ten labels carry none |
| Spreadsheet.Fills | main.py:255 | as meant each region's fill sits on the row its label was appended to, and on no other row |
| Spreadsheet.FillsFollowRows | main.py:239-255 | the meant fill on region `i`'s sheet row is the fill of report row `i` |
| Spreadsheet.Colour | main.py:200-202 | the spreadsheet library accepts a colour exactly when it is 6 or 8 hex digits, stores an RGB one with the alpha "00" in front, and raises `ValueError` naming any other text |
| Spreadsheet.SolidFill | main.py:200-202 | a solid fill is built exactly when both colours are accepted; otherwise it fails on the start colour first, then on the end colour |
| Spreadsheet.BuildPalette | main.py:199-202 | the red, yellow and green fills are built exactly when the yellow start colour is accepted, and otherwise the error names that colour; red and green are each one colour, and yellow ends at "FFFF00" |
| Spreadsheet.FillColoursAsWritten | main.py:201 | with the yellow start colour "FFF00" the fills are never built: `ValueError` names that colour |
| Spreadsheet.FillColours | main.py:199-202 | with the yellow fill starting at "FFFF00" all three fills are built, each one solid colour |
| Spreadsheet.PublishAfterFillsAsWritten | main.py:205-258 | past the fills, the report stage as written never saves: with nations and a minor pass it stops at `M5` for a major pass of no length and at the sheet lookup otherwise |
| Spreadsheet.PublishAsWrittenWith | main.py:199-258 | the report stage as written stops at the fills exactly when the yellow start colour is not accepted, and otherwise goes on as `Spreadsheet.PublishAfterFillsAsWritten` |
| Spreadsheet.PublishAsWritten | main.py:195-258 | as written the report stage stops at the yellow fill for every survey, with `ValueError` naming "FFF00" |
| Spreadsheet.Publish | main.py:195-258 | as meant the report stage fails only on a zero total or minor length, and otherwise gives the meant world cells and the survey's rows |
| Lookout.SurveyPrefix | main.py:239-245 | the prefix beside each report row is the prefix of the merged regions |
| Lookout.SurveyRegionIsListed | main.py:164-193 | survey region `i` is census region `i` with the lists merged in and estimates written, and its prefix entry is the population before it |
| Lookout.RowIgnoresEstimates | main.py:242-255 | the estimate texts take no part in a row's label, fill or nation count |
| Lookout.RowOfEntry | main.py:242-244 | a census entry's row shows its population and is marked exactly when its name is on the password list |
| Lookout.EntryMarks | main.py:239-255 | a row's label and fill are those of its census entry after the merge, with `~` and a non-red fill exactly on a valid target |
| Lookout.EntryTimes | main.py:239-247 | a row's running total is the population before its entry, and its texts are those of the truncated offsets of that total into both passes |
| Lookout.EntryRow | main.py:239-255 | the row a survey gives an entry follows that entry in every modelled column |
| Lookout.RowsOfSurvey | main.py:239-255 | the rows of a survey follow the census entries one for one |
| Lookout.PublishesSurvey | main.py:216-255 | the meant report stage publishes every estimated survey, with the census total, both pass lengths, both seconds-per-nation ratios over the total, their reciprocals as the nations-per-second cells with `M5` blank exactly for a major pass of no length, and the survey's rows |
| Lookout.SheetOfSurvey | main.py:195-258 | the meant report stage publishes every estimated survey of a census, and the sheet follows the census |
| Lookout.SheetAsWrittenOfSurvey | main.py:199-258 | as written, the report stage of an estimated survey ends at the yellow fill; past the fills it would end at `M5` for a major pass of no length and at the sheet lookup otherwise |
| Lookout.Run | main.py:161-258 | a run (with the report stage as meant) fails with the census error, or exactly on an empty census or one without nations; otherwise its sheet holds the census total, both pass lengths (the minor one 2640 seconds), both seconds-per-nation ratios over the total and their reciprocals, a blank `M5` exactly for a major pass of no length, and one row per entry with the entry's label, fill, nations, running total and both estimate texts |
| Lookout.RunAsWritten | main.py:161-258 | the run as written never produces a sheet: it fails with the census error, with the estimator's error exactly on an empty census or one without nations, and otherwise at the yellow fill |
| Lookout.SingleRegionSheet | main.py:180-258 | a census of one region stops at the yellow fill as written, and past the fills would stop at `M5`; as meant its sheet has a blank `M5` and "0:0:0" for both estimates of its row |

## Findings

| source | as written | input that shows it | evidently intended | confidence | as-written member | corrected member |
|---|---|---|---|---|---|---|
| main.py:201 | the yellow fill is built with `start_color="FFF00"`, five hex digits; the spreadsheet library accepts only 6 or 8, so `PatternFill` raises `ValueError` before any cell is written | any census with nations (`Lookout.RunAsWritten`, `Spreadsheet.PublishAsWritten`) | the yellow fill starting at the colour it ends at, "FFFF00", the same line's `end_color` | not executed | Spreadsheet.FillColoursAsWritten | Spreadsheet.FillColours |
| main.py:219 | `M5` is `1 / (float(major_update_length) / CumulNations)`, which raises `ZeroDivisionError` when the major pass has length 0, before any row is written | latent, reached only once main.py:201 is corrected: then a census of one region, or one whose first and last regions share an update time (`Lookout.SingleRegionSheet`, `Spreadsheet.PublishAfterFillsAsWritten`) | no nations-per-second rate for a pass of no length: `M5` left blank, and the rows written | not executed | Spreadsheet.WorldCellsAsWritten | Spreadsheet.WorldCells |
| main.py:255 | the fill of region `i` goes on `ws.cell(row=i + 2, column=1)`, but `ws.append` writes region `i` below the world cells, which reach row 11, on row `12 + i` | latent, reached only once main.py:201 is corrected, and seen in a saved file only once main.py:258 is too: then any census; with one region its fill colours the empty cell `A2` while its label sits in `A12`, and with eleven the first label carries the last region's fill (`Spreadsheet.FillsMissTheirRows`) | each fill on the first cell of the row just appended, the row of its own region | not executed | Spreadsheet.FillsAsWritten | Spreadsheet.Fills |
| main.py:258 | the sheet is looked up as `wb["Lookout Data"]`, but the only sheet of a new `Workbook()` is titled "Sheet", so the lookup raises `KeyError` and the file is never saved | latent, reached only once main.py:201 is corrected: then any census with nations and a major pass of non-zero length (`Lookout.SheetAsWrittenOfSurvey`), provided every EMBASSIES element has leading text, since otherwise main.py:251 raises `TypeError` first | the active sheet, the one the rows were written to, titled "Lookout Data" before it is looked up | not executed | Spreadsheet.DataSheetMissing | Spreadsheet.RetitledSheetFound |

`Spreadsheet.Publish` and `Lookout.Run` use the corrected definitions: the
meant fill colours, world cells and lookup, and rows that each carry their own
region's fill (`Report.Rows`, placed by `Spreadsheet.Fills`).
`Spreadsheet.PublishAsWritten` and `Lookout.RunAsWritten` use the fill colours
as written, `Spreadsheet.PublishAfterFillsAsWritten` the world cells and the
lookup as written, and `Spreadsheet.FillsAsWritten` places the fills as
written. The colour rule of the spreadsheet library (openpyxl), like its
sheet titles and its current row, is stated from that library's behaviour;
openpyxl is not part of this model.

## Left out

- Fetching the census and the two status lists over HTTP (main.py:32-77): network I/O. The status lists enter as sequences of names, the census as a sequence of raw entries.
- Decompressing the census and walking the XML (main.py:80-94): an entry enters as its field texts, with the numeric fields already parsed; `int()` parsing is not modelled. Populations are taken as non-negative.
- Dump.Normalise: an element missing from an entry altogether (`find` returning `None`, then `AttributeError`), and an empty NAME element, are not modelled; names are always texts, and so are the texts of the EMBASSIES elements collected at main.py:94, which are taken to be strings.
- Lookout.RunAsWritten: an EMBASSIES element without leading text (its first EMBASSY child right after the opening tag, or no content at all) has ElementTree's text `None`, and `", ".join` then raises `TypeError` at main.py:251, after main.py:201 but before the sheet lookup; the model takes every such text to be a string, so it does not show this stop, which is latent behind main.py:201 as well.
- Command-line options, the help text, `SystemExit`, the date and the removal of the downloaded file (main.py:114-150, main.py:224, main.py:268): process plumbing.
- The workbook is reduced to its sheet titles, the active sheet and the rows its cells are written on; the contents of the header cells, the region link, vote, endorsement, factbook and embassy cells, the column width, the pattern type of the fills and how their colours render, and the saving of the file (main.py:199-215, main.py:226-264) belong to the spreadsheet library.
- The rate cells `M4`, `M5`, `M7` and `M8` (main.py:218-222) are exact ratios (numerator and denominator); floating-point rounding of them is not modelled, and neither are `M10` and `M11` (version and date).
- Schedule.OffsetIsFloor: the estimate is computed in floating point (`n * float(L) / total`, then `int()`); the model uses the exact quotient truncated toward zero, so float rounding of very large products is not modelled.
- Lookout.Run: models the report stage as meant (all four findings corrected); the program as written never saves a sheet, stopping at the yellow fill, which `Lookout.RunAsWritten` states, and colours the wrong cells, which `Spreadsheet.FillsMissTheirRows` states.
- Report.Rows: a row carries its own region's fill, the placing as meant; the sheet row the code colours instead is modelled separately by `Spreadsheet.FillsAsWritten`.
- The getters of `founderless`, `passworded`, `minorup` and `majorup` are the record's fields.

=== FILE: clock.dfy ===
/** The elapsed-time text the estimator writes into `minorup` and `majorup`
    (main.py): seconds, minutes and hours as `S:M:H`, each part an unpadded
    decimal, hours not wrapped into days. Also a reader for that text, so that
    the written value can be recovered. */
module Clock {
  import opened Outcome

  /** An elapsed time split into its three displayed parts. */
  datatype ClockReading = ClockReading(seconds: nat, minutes: nat, hours: int)
  {
    /** The number of seconds this reading stands for. */
    function Total(): int {
      seconds + 60 * minutes + 3600 * hours
    }
  }

  /** Splits `t` the way the report does: seconds `t % 60`, minutes
      `(t // 60) % 60`, hours `t // 3600`. Python's `%` and `//` by a positive
      divisor round toward negative infinity, as Dafny's do. */
  function Reading(t: int): (c: ClockReading)
    ensures c.seconds < 60 && c.minutes < 60
    ensures c.Total() == t
  {
    ClockReading(t % 60, t / 60 % 60, t / 3600)
  }

  /** The parts are determined by the time: any split with seconds and minutes
      below 60 that adds back up to `t` is the one `Reading` gives. */
  lemma {:induction false} ReadingUnique(t: int, c: ClockReading)
    requires c.seconds < 60 && c.minutes < 60 && c.Total() == t
    ensures c == Reading(t)
  {
    var r := Reading(t);
    var a := c.seconds + 60 * c.minutes;
    var b := r.seconds + 60 * r.minutes;
    assert 0 <= a < 3600 && 0 <= b < 3600;
    assert a - b == 3600 * (r.hours - c.hours);
    assert c.hours == r.hours;
    assert c.minutes == r.minutes;
  }

  predicate IsDigit(ch: char) {
    '0' <= ch <= '9'
  }

  predicate IsDigits(s: string) {
    forall i :: 0 <= i < |s| ==> IsDigit(s[i])
  }

  function DigitChar(d: nat): (ch: char)
    requires d < 10
    ensures IsDigit(ch)
  {
    ('0' as int + d) as char
  }

  function DigitValue(ch: char): (d: nat)
    requires IsDigit(ch)
    ensures d < 10
  {
    ch as int - '0' as int
  }

  /** Python's `str` of a non-negative integer: decimal digits, no leading zero. */
  function NatText(n: nat): (s: string)
    ensures |s| > 0 && IsDigits(s)
    ensures s[0] == '0' ==> n == 0 && s == "0"
    decreases n
  {
    if n < 10 then [DigitChar(n)] else NatText(n / 10) + [DigitChar(n % 10)]
  }

  /** Python's `str` of any integer: a minus sign before the digits of a negative one. */
  function IntText(i: int): string {
    if i < 0 then "-" + NatText(-i) else NatText(i)
  }

  /** The value of a string of decimal digits. */
  function DecimalValue(s: string): nat
    requires IsDigits(s)
    decreases |s|
  {
    if |s| == 0 then 0 else DecimalValue(s[..|s| - 1]) * 10 + DigitValue(s[|s| - 1])
  }

  lemma {:induction false} NatTextRoundTrip(n: nat)
    ensures DecimalValue(NatText(n)) == n
    decreases n
  {
    if n >= 10 {
      var s := NatText(n);
      assert s[..|s| - 1] == NatText(n / 10);
      NatTextRoundTrip(n / 10);
    }
  }

  /** The time text `S:M:H` written for `t` seconds. */
  function ClockText(t: int): string {
    var c := Reading(t);
    NatText(c.seconds) + ":" + NatText(c.minutes) + ":" + IntText(c.hours)
  }

  /** Position of the first `sep` in `s`. */
  function FirstIndex(s: string, sep: char): (k: nat)
    requires sep in s
    ensures k < |s| && s[k] == sep && sep !in s[..k]
  {
    if s[0] == sep then 0
    else
      assert s == [s[0]] + s[1..];
      var k := 1 + FirstIndex(s[1..], sep);
      assert s[..k] == [s[0]] + s[1..][..k - 1];
      k
  }

  /** Splits `s` at every `sep`, like Python's `str.split(sep)`. */
  function Split(s: string, sep: char): (parts: seq<string>)
    ensures |parts| > 0
    decreases |s|
  {
    if sep !in s then [s]
    else
      var k := FirstIndex(s, sep);
      [s[..k]] + Split(s[k + 1..], sep)
  }

  lemma SplitJoin(a: string, b: string, sep: char)
    requires sep !in a
    ensures Split(a + [sep] + b, sep) == [a] + Split(b, sep)
  {
    var s := a + [sep] + b;
    assert s[|a|] == sep;
    var k := FirstIndex(s, sep);
    assert forall j :: 0 <= j < |a| ==> s[j] == a[j];
    assert k == |a|;
    assert s[..k] == a;
    assert s[k + 1..] == b;
  }

  lemma SplitWhole(a: string, sep: char)
    requires sep !in a
    ensures Split(a, sep) == [a]
  {
  }

  function ParseNat(s: string): Option<nat> {
    if |s| > 0 && IsDigits(s) then Some(DecimalValue(s)) else None
  }

  function ParseInt(s: string): Option<int> {
    if |s| > 0 && s[0] == '-' then
      match ParseNat(s[1..])
      case Some(n) => var v: int := n; Some(0 - v)
      case None => None
    else
      match ParseNat(s)
      case Some(n) => Some(n)
      case None => None
  }

  /** Reads a time text back into its three parts, if it has the `S:M:H` shape. */
  function ParseClock(s: string): Option<ClockReading> {
    var parts := Split(s, ':');
    if |parts| != 3 then None
    else
      match (ParseNat(parts[0]), ParseNat(parts[1]), ParseInt(parts[2]))
      case (Some(sec), Some(min), Some(h)) => Some(ClockReading(sec, min, h))
      case _ => None
  }

  /** Reading back the text of a number gives the number. */
  lemma ParseNatText(n: nat)
    ensures ParseNat(NatText(n)) == Some(n)
  {
    NatTextRoundTrip(n);
  }

  /** Reading back the text of any integer gives the integer, sign included. */
  lemma ParseIntText(i: int)
    ensures ParseInt(IntText(i)) == Some(i)
  {
    if i < 0 {
      var s := IntText(i);
      assert s[1..] == NatText(-i);
      ParseNatText(-i);
    } else {
      ParseNatText(i);
      assert NatText(i)[0] != '-';
    }
  }

  lemma NoSeparator(s: string)
    requires IsDigits(s)
    ensures ':' !in s
  {
    assert forall k :: 0 <= k < |s| ==> s[k] != ':';
  }

  lemma IntTextHasNoSeparator(i: int)
    ensures ':' !in IntText(i)
  {
    if i < 0 {
      NoSeparator(NatText(-i));
      assert IntText(i) == ['-'] + NatText(-i);
    } else {
      NoSeparator(NatText(i));
    }
  }

  lemma SplitThree(s1: string, s2: string, s3: string)
    requires ':' !in s1 && ':' !in s2 && ':' !in s3
    ensures Split(s1 + ":" + s2 + ":" + s3, ':') == [s1, s2, s3]
  {
    assert s1 + ":" + s2 + ":" + s3 == s1 + [':'] + (s2 + [':'] + s3);
    SplitJoin(s1, s2 + [':'] + s3, ':');
    SplitJoin(s2, s3, ':');
    SplitWhole(s3, ':');
  }

  /** Reading back the written text gives the three parts of the time, and so
      the time itself: the format loses nothing. */
  lemma {:induction false} ClockTextRoundTrip(t: int)
    ensures ParseClock(ClockText(t)) == Some(Reading(t))
    ensures ParseClock(ClockText(t)).value.Total() == t
  {
    var c := Reading(t);
    var s1, s2, s3 := NatText(c.seconds), NatText(c.minutes), IntText(c.hours);
    NoSeparator(s1);
    NoSeparator(s2);
    IntTextHasNoSeparator(c.hours);
    SplitThree(s1, s2, s3);
    ParseNatText(c.seconds);
    ParseNatText(c.minutes);
    ParseIntText(c.hours);
  }

  /** Zero is written as the single digit 0, whether as a count or as hours. */
  lemma ZeroText(n: int)
    requires n == 0
    ensures NatText(n) == "0" && IntText(n) == "0"
  {
  }

  /** Three zero parts join to "0:0:0". */
  lemma ZeroJoin(a: string, b: string, c: string)
    requires a == "0" && b == "0" && c == "0"
    ensures a + ":" + b + ":" + c == "0:0:0"
  {
  }

  /** A time whose three parts are all zero reads "0:0:0". */
  lemma ClockTextZero(t: int)
    requires Reading(t) == ClockReading(0, 0, 0)
    ensures ClockText(t) == "0:0:0"
  {
    var c := Reading(t);
    ZeroText(c.seconds);
    ZeroText(c.minutes);
    ZeroText(c.hours);
    ZeroJoin(NatText(c.seconds), NatText(c.minutes), IntText(c.hours));
  }

  /** Neither padded nor carried into days: 3661 seconds read "1:1:1". */
  lemma ClockTextExample()
    ensures ClockText(3661) == "1:1:1"
  {
    assert Reading(3661) == ClockReading(1, 1, 1);
    assert NatText(1) == "1";
  }

  /** 90000 seconds (25 hours) read "0:0:25". */
  lemma ClockTextNoDays()
    ensures ClockText(90000) == "0:0:25"
  {
    assert Reading(90000) == ClockReading(0, 0, 25);
    assert NatText(0) == "0";
    assert NatText(25) == "25";
  }
}

=== FILE: dump.dfy ===
/** The per-record normalisation `parse_dump` applies to one census entry
    (main.py), from the raw field texts of the entry to a `Region`. */
module Dump {
  import opened Outcome
  import opened Objects

  /** The fields of one REGION element of the census, as the XML reader
      hands them over. The text of an element that holds nothing is `None`,
      which is what ElementTree gives for an empty element; the numeric
      fields are already parsed. */
  datatype RawRegion = RawRegion(
    name: string,
    factbook: Option<string>,
    numNations: nat,
    delegate: Option<string>,
    founder: Option<string>,
    delegateAuth: Option<string>,
    founderAuth: Option<string>,
    lastUpdate: int,
    delegateVotes: int,
    embassies: seq<string>)

  /** Why one entry cannot be read, in the order the reader meets them: the
      factbook has no first character to inspect (it is empty or `None`), or
      an authority text is `None` so the search for the executive letter fails. */
  datatype EntryFault = FactbookMissing | DelegateAuthMissing | FounderAuthMissing

  /** Why the census could not be read: the entry at `index` is faulty. */
  datatype DumpError = BadEntry(index: nat, fault: EntryFault)

  /** The officer text the census uses when the office is vacant. */
  const Vacant: string := "0"

  /** Characters that would make a spreadsheet read the factbook as a formula. */
  const FormulaLeads: set<char> := {'=', '+', '-', '@'}

  /** The authority letter that marks executive powers. */
  const ExecutiveLetter: char := 'X'

  /** The officer after reading: the exact text "0" means vacant, an empty
      element stays absent, and any other text is kept. */
  function OfficerOrVacant(text: Option<string>): (r: Option<string>)
    ensures r.None? <==> text.None? || text == Some(Vacant)
    ensures r.Some? ==> r == text
  {
    if text == Some(Vacant) then None else text
  }

  /** Drops one leading formula character from a non-empty factbook. */
  function StripFormulaLead(wfe: string): (r: string)
    requires |wfe| > 0
    ensures wfe[0] in FormulaLeads ==> wfe == [wfe[0]] + r
    ensures wfe[0] !in FormulaLeads ==> r == wfe
  {
    if wfe[0] in FormulaLeads then wfe[1..] else wfe
  }

  /** An authority string grants executive powers when it contains the letter X. */
  function HasExecutive(auth: string): (r: bool)
    ensures r <==> exists i :: 0 <= i < |auth| && auth[i] == ExecutiveLetter
  {
    ExecutiveLetter in auth
  }

  /** The factbook has a first character for the formula check to look at. */
  predicate HasFactbook(raw: RawRegion) {
    raw.factbook.Some? && |raw.factbook.value| > 0
  }

  /** Builds the region of one census entry: officers "0" become vacant, one
      leading formula character is dropped from the factbook, the executive
      flags are read from the authority strings, and the two status flags
      start false with no update estimates yet. The factbook is inspected
      first, then the delegate's authority, then the founder's; the first of
      them that is missing is the fault. */
  function Normalise(raw: RawRegion): (r: Result<Region, EntryFault>)
    ensures r == Failure(FactbookMissing) <==> !HasFactbook(raw)
    ensures r == Failure(DelegateAuthMissing) <==> HasFactbook(raw) && raw.delegateAuth.None?
    ensures r == Failure(FounderAuthMissing) <==>
      HasFactbook(raw) && raw.delegateAuth.Some? && raw.founderAuth.None?
    ensures r.Success? <==> HasFactbook(raw) && raw.delegateAuth.Some? && raw.founderAuth.Some?
    ensures r.Success? ==>
      var g := r.value;
      var wfe := raw.factbook.value;
      && g.name == raw.name
      && g.numNations == raw.numNations
      && g.delegateVotes == raw.delegateVotes
      && g.embassies == raw.embassies
      && g.updateTime == raw.lastUpdate
      && (g.delegate.None? <==> raw.delegate.None? || raw.delegate == Some(Vacant))
      && (g.delegate.Some? ==> g.delegate == raw.delegate)
      && (g.founder.None? <==> raw.founder.None? || raw.founder == Some(Vacant))
      && (g.founder.Some? ==> g.founder == raw.founder)
      && (wfe[0] in FormulaLeads ==> wfe == [wfe[0]] + g.wfe)
      && (wfe[0] !in FormulaLeads ==> g.wfe == wfe)
      && (g.execDelegate <==> ExecutiveLetter in raw.delegateAuth.value)
      && (g.execFounder <==> ExecutiveLetter in raw.founderAuth.value)
      && !g.founderless && !g.passworded
      && g.minorUp == "" && g.majorUp == ""
  {
    if !HasFactbook(raw) then Failure(FactbookMissing)
    else if raw.delegateAuth.None? then Failure(DelegateAuthMissing)
    else if raw.founderAuth.None? then Failure(FounderAuthMissing)
    else
      Success(Region(
        name := raw.name,
        wfe := StripFormulaLead(raw.factbook.value),
        numNations := raw.numNations,
        delegate := OfficerOrVacant(raw.delegate),
        founder := OfficerOrVacant(raw.founder),
        delegateVotes := raw.delegateVotes,
        embassies := raw.embassies,
        updateTime := raw.lastUpdate,
        execFounder := HasExecutive(raw.founderAuth.value),
        execDelegate := HasExecutive(raw.delegateAuth.value),
        founderless := false,
        passworded := false,
        minorUp := "",
        majorUp := ""))
  }

  /** Reads the whole census in order. The run stops at the first faulty
      entry and names it with its fault; otherwise every entry yields its
      region, in order. */
  function ParseDump(raws: seq<RawRegion>): (r: Result<seq<Region>, DumpError>)
    ensures r.Success? <==> forall i :: 0 <= i < |raws| ==> Normalise(raws[i]).Success?
    ensures r.Success? ==>
      && |r.value| == |raws|
      && forall i :: 0 <= i < |raws| ==> Normalise(raws[i]) == Success(r.value[i])
    ensures r.Failure? ==>
      && r.error.index < |raws|
      && Normalise(raws[r.error.index]) == Failure(r.error.fault)
      && forall j :: 0 <= j < r.error.index ==> Normalise(raws[j]).Success?
  {
    if |raws| == 0 then Success([])
    else match Normalise(raws[0])
      case Failure(fault) => Failure(BadEntry(0, fault))
      case Success(first) =>
        match ParseDump(raws[1..])
        case Failure(e) => Failure(BadEntry(e.index + 1, e.fault))
        case Success(rest) => Success([first] + rest)
  }

  /** A region has no delegate exactly when the census listed its delegate as
      "0" or left the element empty; any other text, "00" or "0 " included, is
      kept as the delegate. */
  lemma NoDelegateIffVacant(raw: RawRegion)
    requires Normalise(raw).Success?
    ensures Normalise(raw).value.NoDelegate() <==> raw.delegate.None? || raw.delegate == Some("0")
  {
  }

  /** Only the first formula character is dropped, whatever follows it. */
  lemma StripExamples()
    ensures StripFormulaLead("==x") == "=x"
    ensures StripFormulaLead("=SUM(A1)") == "SUM(A1)"
    ensures StripFormulaLead("x=") == "x="
    ensures OfficerOrVacant(Some("00")) == Some("00")
    ensures OfficerOrVacant(Some("0 ")) == Some("0 ")
    ensures OfficerOrVacant(Some("0")) == None
  {
  }
}

=== FILE: lookout.dfy ===
/** The whole pure path of `main()` (main.py): read the census entries,
    merge the status lists, estimate the schedule, and fill the sheet.
    Fetching, decompressing and writing the file stay outside. */
module Lookout {
  import opened Outcome
  import opened Objects
  import opened Dump
  import opened Schedule
  import opened Report
  import opened Clock
  import opened Spreadsheet

  /** The error that ends a run. */
  datatype RunError =
    | BadDump(dumpError: DumpError)
    | NoSchedule(scheduleError: ScheduleError)
    | BadSheet(sheetError: SheetError)

  /** A survey keeps each census region's population, so its prefix is
      also the prefix of its own regions. */
  lemma {:induction false} SurveyPrefix(parsed: seq<Region>, passwordedNames: seq<string>, founderlessNames: seq<string>, s: Survey)
    requires IsSurveyOf(parsed, passwordedNames, founderlessNames, s)
    ensures IsPrefixSums(s.regions, s.cnations)
  {
    forall i | 0 <= i < |parsed|
      ensures s.regions[i].numNations == parsed[i].numNations
    {
      assert MergedOne(parsed[i], passwordedNames, founderlessNames,
                       s.regions[i].(minorUp := parsed[i].minorUp, majorUp := parsed[i].majorUp));
    }
  }

  /** Region `i` of a survey is census region `i` with the status lists
      merged in, apart from its estimate texts, and its prefix entry is the
      population before it. */
  lemma {:induction false} SurveyRegionIsListed(parsed: seq<Region>, passwordedNames: seq<string>,
                                                founderlessNames: seq<string>, s: Survey, i: nat)
    requires IsSurveyOf(parsed, passwordedNames, founderlessNames, s)
    requires i < |parsed|
    ensures s.regions[i] == Listed(parsed[i], passwordedNames, founderlessNames)
                              .(minorUp := s.regions[i].minorUp, majorUp := s.regions[i].majorUp)
    ensures s.cnations[i] == Population(parsed[..i])
  {
    var o := s.regions[i];
    var p := parsed[i];
    assert MergedOne(p, passwordedNames, founderlessNames, o.(minorUp := p.minorUp, majorUp := p.majorUp));
    MergedIsListed(p, passwordedNames, founderlessNames, o.(minorUp := p.minorUp, majorUp := p.majorUp));
    PrefixIsPopulation(parsed, s.cnations, i);
  }

  /** The estimate texts take no part in the label, the fill or the nation
      count of a row. */
  lemma {:induction false} RowIgnoresEstimates(region: Region, o: Region)
    requires o == region.(minorUp := o.minorUp, majorUp := o.majorUp)
    ensures Label(o) == Label(region) && RowFill(o) == RowFill(region)
    ensures o.numNations == region.numNations
  {
    ValidTargetReadsOnlyFlags(o, region);
  }

  /** The row of one census entry after parsing and merging: its nations are
      the entry's, and it carries a mark exactly when the entry's name is on
      the password list. */
  lemma {:induction false} RowOfEntry(raw: RawRegion, passwordedNames: seq<string>, founderlessNames: seq<string>,
                                      p: Region)
    requires Normalise(raw).Success? && Normalise(raw).value == p
    ensures Listed(p, passwordedNames, founderlessNames).numNations == raw.numNations
    ensures |Label(Listed(p, passwordedNames, founderlessNames))| > 0 <==> raw.name in passwordedNames
  {
    LabelRoundTrip(Listed(p, passwordedNames, founderlessNames));
  }

  /** The first columns of row `i` for the census `raws`: the entry's
      region with the status lists merged in, labelled and filled by the
      target rule, and the entry's nations. */
  ghost predicate RowMarksEntry(raws: seq<RawRegion>, passwordedNames: seq<string>, founderlessNames: seq<string>,
                                parsed: seq<Region>, i: nat, row: Row)
    requires |parsed| == |raws| && i < |parsed|
  {
    var region := Listed(parsed[i], passwordedNames, founderlessNames);
    && row.mark == Label(region)
    && (|row.mark| > 0 <==> raws[i].name in passwordedNames)
    && (ReadLabel(row.mark).0 <==> region.ValidTarget())
    && row.fill == RowFill(region)
    && (row.fill == Red <==> !region.ValidTarget())
    && row.nations == raws[i].numNations
  }

  /** The timing columns of row `i` for the census `parsed`: the population
      before the entry, and the `S:M:H` texts of its truncated offsets into
      both passes. */
  ghost predicate RowTimesEntry(parsed: seq<Region>, i: nat, row: Row)
    requires i < |parsed| && Population(parsed) > 0
  {
    var before := Population(parsed[..i]);
    && row.totalBefore == before
    && row.minorUp == ClockText(UpdateOffset(before, MinorLength, Population(parsed)))
    && row.majorUp == ClockText(UpdateOffset(before, MajorLength(parsed), Population(parsed)))
  }

  /** Row `i` of the report for the census `raws`, in all its columns. */
  ghost predicate RowFollowsEntry(raws: seq<RawRegion>, passwordedNames: seq<string>, founderlessNames: seq<string>,
                                  parsed: seq<Region>, i: nat, row: Row)
    requires |parsed| == |raws| && i < |parsed| && Population(parsed) > 0
  {
    RowMarksEntry(raws, passwordedNames, founderlessNames, parsed, i, row) && RowTimesEntry(parsed, i, row)
  }

  /** One row per census entry, in order, each following its entry. */
  ghost predicate RowsFollowCensus(raws: seq<RawRegion>, passwordedNames: seq<string>, founderlessNames: seq<string>,
                                   parsed: seq<Region>, rows: seq<Row>)
    requires |parsed| == |raws| && Population(parsed) > 0
  {
    && |rows| == |raws|
    && forall i :: 0 <= i < |raws| ==> RowFollowsEntry(raws, passwordedNames, founderlessNames, parsed, i, rows[i])
  }

  /** The label, fill and nations of the row an estimated survey gives
      census entry `i` follow that entry. */
  lemma {:induction false} EntryMarks(raws: seq<RawRegion>, passwordedNames: seq<string>, founderlessNames: seq<string>,
                                      parsed: seq<Region>, s: Survey, i: nat)
    requires ParseDump(raws) == Success(parsed)
    requires IsSurveyOf(parsed, passwordedNames, founderlessNames, s)
    requires i < |raws|
    ensures RowMarksEntry(raws, passwordedNames, founderlessNames, parsed, i, MakeRow(s.regions[i], s.cnations[i]))
  {
    var region := Listed(parsed[i], passwordedNames, founderlessNames);
    SurveyRegionIsListed(parsed, passwordedNames, founderlessNames, s, i);
    RowIgnoresEstimates(region, s.regions[i]);
    RowOfEntry(raws[i], passwordedNames, founderlessNames, parsed[i]);
  }

  /** The totals a survey keeps: the population before region `i`, the
      census total, and the major pass of the census. */
  lemma {:induction false} SurveyTotals(parsed: seq<Region>, passwordedNames: seq<string>, founderlessNames: seq<string>,
                                        s: Survey, i: nat)
    requires IsSurveyOf(parsed, passwordedNames, founderlessNames, s)
    requires i < |parsed|
    ensures s.cnations[i] == Population(parsed[..i])
    ensures s.totalNations == Population(parsed) > 0
    ensures s.majorLength == MajorLength(parsed)
  {
    PrefixIsPopulation(parsed, s.cnations, i);
  }

  /** Region `i` of an estimated survey carries the texts of its own prefix entry. */
  lemma {:induction false} EstimateOf(s: Survey, i: nat)
    requires EstimatesWritten(s)
    requires i < |s.regions|
    ensures HasEstimates(s.regions[i], s.cnations[i], s.totalNations, s.majorLength)
  {
  }

  /** A region carrying the estimate texts of the population before entry
      `i` gives a row whose timing columns follow that entry. */
  lemma {:induction false} TimesOfRow(parsed: seq<Region>, i: nat, o: Region, n: nat)
    requires i < |parsed| && Population(parsed) > 0
    requires n == Population(parsed[..i])
    requires HasEstimates(o, n, Population(parsed), MajorLength(parsed))
    ensures RowTimesEntry(parsed, i, MakeRow(o, n))
  {
  }

  /** The running total and estimate texts of the row an estimated survey
      gives census region `i` follow from the census alone. */
  lemma {:induction false} EntryTimes(parsed: seq<Region>, passwordedNames: seq<string>, founderlessNames: seq<string>,
                                      s: Survey, i: nat)
    requires IsSurveyOf(parsed, passwordedNames, founderlessNames, s)
    requires EstimatesWritten(s)
    requires i < |parsed|
    ensures RowTimesEntry(parsed, i, MakeRow(s.regions[i], s.cnations[i]))
  {
    SurveyTotals(parsed, passwordedNames, founderlessNames, s, i);
    EstimateOf(s, i);
    TimesOfRow(parsed, i, s.regions[i], s.cnations[i]);
  }

  /** The row an estimated survey gives census entry `i` follows that entry. */
  lemma {:induction false} EntryRow(raws: seq<RawRegion>, passwordedNames: seq<string>, founderlessNames: seq<string>,
                                    parsed: seq<Region>, s: Survey, i: nat)
    requires ParseDump(raws) == Success(parsed)
    requires IsSurveyOf(parsed, passwordedNames, founderlessNames, s)
    requires EstimatesWritten(s)
    requires i < |raws|
    ensures RowFollowsEntry(raws, passwordedNames, founderlessNames, parsed, i, MakeRow(s.regions[i], s.cnations[i]))
  {
    EntryMarks(raws, passwordedNames, founderlessNames, parsed, s, i);
    EntryTimes(parsed, passwordedNames, founderlessNames, s, i);
  }

  /** The rows of an estimated survey of a parsed census follow the census entries. */
  lemma {:induction false} RowsOfSurvey(raws: seq<RawRegion>, passwordedNames: seq<string>, founderlessNames: seq<string>,
                     parsed: seq<Region>, s: Survey)
    requires ParseDump(raws) == Success(parsed)
    requires IsSurveyOf(parsed, passwordedNames, founderlessNames, s)
    requires EstimatesWritten(s)
    ensures IsPrefixSums(s.regions, s.cnations)
    ensures RowsFollowCensus(raws, passwordedNames, founderlessNames, parsed, Rows(s.regions, s.cnations))
  {
    SurveyPrefix(parsed, passwordedNames, founderlessNames, s);
    var rows := Rows(s.regions, s.cnations);
    forall i | 0 <= i < |raws|
      ensures RowFollowsEntry(raws, passwordedNames, founderlessNames, parsed, i, rows[i])
    {
      EntryRow(raws, passwordedNames, founderlessNames, parsed, s, i);
      assert rows[i] == MakeRow(s.regions[i], s.cnations[i]);
    }
  }

  /** The world data cells of the census `parsed`: the census total, both
      pass lengths, the seconds per nation of each pass over the total, and
      the nations per second as their reciprocals, blank for the major pass
      exactly when it takes no time. */
  ghost predicate WorldFollowsCensus(parsed: seq<Region>, world: WorldData)
    requires |parsed| > 0
  {
    && world.nations == Population(parsed)
    && world.majorLength == MajorLength(parsed)
    && world.majorSecsPerNation == Ratio(MajorLength(parsed), Population(parsed))
    && (world.majorNationsPerSec.None? <==> MajorLength(parsed) == 0)
    && (world.majorNationsPerSec.Some? ==> Reciprocal(world.majorSecsPerNation, world.majorNationsPerSec.value))
    && world.minorLength == MinorLength
    && world.minorSecsPerNation == Ratio(MinorLength, Population(parsed))
    && Reciprocal(world.minorSecsPerNation, world.minorNationsPerSec)
  }

  /** `sheet` is the report of the census `raws`: world data cells that
      follow the census, and one row per entry following it. */
  ghost predicate SheetFollowsCensus(raws: seq<RawRegion>, passwordedNames: seq<string>, founderlessNames: seq<string>,
                                     sheet: Sheet)
  {
    && ParseDump(raws).Success?
    && var parsed := ParseDump(raws).value;
    && |parsed| > 0 && Population(parsed) > 0
    && WorldFollowsCensus(parsed, sheet.world)
    && RowsFollowCensus(raws, passwordedNames, founderlessNames, parsed, sheet.rows)
  }

  /** The meant report stage publishes an estimated survey, with world
      data cells that follow the census and the survey's rows. */
  lemma {:induction false} PublishesSurvey(parsed: seq<Region>, passwordedNames: seq<string>, founderlessNames: seq<string>,
                                           s: Survey)
    requires IsSurveyOf(parsed, passwordedNames, founderlessNames, s)
    ensures IsPrefixSums(s.regions, s.cnations)
    ensures Publish(s).Success?
    ensures WorldFollowsCensus(parsed, Publish(s).value.world)
    ensures Publish(s).value.rows == Rows(s.regions, s.cnations)
  {
    SurveyPrefix(parsed, passwordedNames, founderlessNames, s);
  }

  /** The world cells and the rows together make the sheet of the census. */
  lemma {:induction false} SheetFromParts(raws: seq<RawRegion>, passwordedNames: seq<string>, founderlessNames: seq<string>,
                                          parsed: seq<Region>, sheet: Sheet)
    requires ParseDump(raws) == Success(parsed)
    requires |parsed| > 0 && Population(parsed) > 0
    requires WorldFollowsCensus(parsed, sheet.world)
    requires RowsFollowCensus(raws, passwordedNames, founderlessNames, parsed, sheet.rows)
    ensures SheetFollowsCensus(raws, passwordedNames, founderlessNames, sheet)
  {
  }

  /** The meant report stage publishes every estimated survey of a census,
      and the sheet follows the census. */
  lemma {:induction false} SheetOfSurvey(raws: seq<RawRegion>, passwordedNames: seq<string>, founderlessNames: seq<string>,
                      parsed: seq<Region>, s: Survey)
    requires ParseDump(raws) == Success(parsed)
    requires IsSurveyOf(parsed, passwordedNames, founderlessNames, s)
    requires EstimatesWritten(s)
    ensures IsPrefixSums(s.regions, s.cnations)
    ensures Publish(s).Success?
    ensures SheetFollowsCensus(raws, passwordedNames, founderlessNames, Publish(s).value)
  {
    PublishesSurvey(parsed, passwordedNames, founderlessNames, s);
    RowsOfSurvey(raws, passwordedNames, founderlessNames, parsed, s);
    SheetFromParts(raws, passwordedNames, founderlessNames, parsed, Publish(s).value);
  }

  /** As the code runs it, the report stage of an estimated survey ends at
      the yellow fill. Were that colour corrected, it would end at `M5` when
      the major pass takes no time, and otherwise at the sheet lookup. */
  lemma {:induction false} SheetAsWrittenOfSurvey(parsed: seq<Region>, passwordedNames: seq<string>, founderlessNames: seq<string>, s: Survey)
    requires IsSurveyOf(parsed, passwordedNames, founderlessNames, s)
    ensures IsPrefixSums(s.regions, s.cnations)
    ensures PublishAsWritten(s) == Failure(BadColour(YellowStartAsWritten))
    ensures PublishAfterFillsAsWritten(s).error ==
      (if MajorLength(parsed) == 0 then DivisionByZero("M5") else MissingSheet(DataTitle))
  {
    SurveyPrefix(parsed, passwordedNames, founderlessNames, s);
  }

  /** One run over the census entries `raws`, with the names from the
      password and founderless status lists, as the report stage is meant to
      end. It fails with the census error when an entry cannot be read, and
      otherwise exactly when the census is empty or holds no nation; a sheet
      it produces follows the census. */
  method Run(raws: seq<RawRegion>, passwordedNames: seq<string>, founderlessNames: seq<string>)
    returns (r: Result<Sheet, RunError>)
    ensures ParseDump(raws).Failure? ==> r == Failure(BadDump(ParseDump(raws).error))
    ensures ParseDump(raws).Success? ==>
      (r.Success? <==> |raws| > 0 && Population(ParseDump(raws).value) > 0)
    ensures ParseDump(raws).Success? && r.Failure? ==> r.error.NoSchedule?
    ensures r.Success? ==> SheetFollowsCensus(raws, passwordedNames, founderlessNames, r.value)
  {
    var parsed := ParseDump(raws);
    if parsed.Failure? {
      return Failure(BadDump(parsed.error));
    }
    var survey := Estimate(parsed.value, passwordedNames, founderlessNames);
    if survey.Failure? {
      return Failure(NoSchedule(survey.error));
    }
    SheetOfSurvey(raws, passwordedNames, founderlessNames, parsed.value, survey.value);
    var sheet := Publish(survey.value);
    return Success(sheet.value);
  }

  /** The same run as the code has it: it never saves a sheet. With the
      census read and estimated, it stops at the yellow fill, whose start
      colour is no colour. */
  method RunAsWritten(raws: seq<RawRegion>, passwordedNames: seq<string>, founderlessNames: seq<string>)
    returns (r: Result<Sheet, RunError>)
    ensures r.Failure?
    ensures ParseDump(raws).Failure? ==> r == Failure(BadDump(ParseDump(raws).error))
    ensures ParseDump(raws).Success? ==>
      (r.error.NoSchedule? <==> |raws| == 0 || Population(ParseDump(raws).value) == 0)
    ensures ParseDump(raws).Success? && |raws| > 0 && Population(ParseDump(raws).value) > 0 ==>
      r == Failure(BadSheet(BadColour(YellowStartAsWritten)))
  {
    var parsed := ParseDump(raws);
    if parsed.Failure? {
      return Failure(BadDump(parsed.error));
    }
    var survey := Estimate(parsed.value, passwordedNames, founderlessNames);
    if survey.Failure? {
      return Failure(NoSchedule(survey.error));
    }
    SheetAsWrittenOfSurvey(parsed.value, passwordedNames, founderlessNames, survey.value);
    var sheet := PublishAsWritten(survey.value);
    return Failure(BadSheet(sheet.error));
  }

  /** A census of a single region, as the code runs it, ends at the yellow
      fill, and would end at `M5` were that colour corrected; as meant, it
      yields a sheet with a blank rate and both texts at "0:0:0". */
  lemma {:induction false} SingleRegionSheet(p: Region, passwordedNames: seq<string>, founderlessNames: seq<string>, s: Survey)
    requires IsSurveyOf([p], passwordedNames, founderlessNames, s)
    requires EstimatesWritten(s)
    ensures IsPrefixSums(s.regions, s.cnations)
    ensures PublishAsWritten(s) == Failure(BadColour(YellowStartAsWritten))
    ensures PublishAfterFillsAsWritten(s) == Failure(DivisionByZero("M5"))
    ensures Publish(s).Success?
    ensures Publish(s).value.world.majorNationsPerSec.None?
    ensures Publish(s).value.rows[0].minorUp == "0:0:0" && Publish(s).value.rows[0].majorUp == "0:0:0"
  {
    SurveyPrefix([p], passwordedNames, founderlessNames, s);
    SingleRegion(p, passwordedNames, founderlessNames, s);
  }
}

=== FILE: objects.dfy ===
/** The region record of `model/objects.py` and its derived predicates. */
module Objects {
  import opened Outcome

  /** One region of the census. `founderless` and `passworded` are the two
      flags applied after construction; `minorUp` and `majorUp` hold the
      estimated update offsets once the estimator has run ("" before). */
  datatype Region = Region(
    name: string,
    wfe: string,
    numNations: nat,
    delegate: Option<string>,
    founder: Option<string>,
    delegateVotes: int,
    embassies: seq<string>,
    updateTime: int,
    execFounder: bool,
    execDelegate: bool,
    founderless: bool,
    passworded: bool,
    minorUp: string,
    majorUp: string)
  {
    /** The region has no functional delegate. */
    predicate NoDelegate() {
      delegate.None?
    }

    /** The four inputs of the target rule. */
    function TargetFlags(): Flags {
      Flags(execFounder, execDelegate, founderless, passworded)
    }

    /** The target rule: the region is passworded, and its founder cannot
        act against a raid (the founder is not executive, or the delegate is
        executive, or the region carries the founderless status tag). The
        password is an outer conjunct, so every valid target is passworded. */
    predicate ValidTarget()
      ensures ValidTarget() ==> passworded
    {
      TargetFlags().Valid()
    }

    /** Setter of the `founderless` property: changes that flag and nothing else. */
    function SetFounderless(value: bool): (r: Region)
      ensures r.founderless == value
      ensures r.(founderless := founderless) == this
    {
      this.(founderless := value)
    }

    /** Setter of the `passworded` property: changes that flag and nothing else. */
    function SetPassworded(value: bool): (r: Region)
      ensures r.passworded == value
      ensures r.(passworded := passworded) == this
    {
      this.(passworded := value)
    }

    /** Setter of the `minorup` property: changes that text and nothing else. */
    function SetMinorUp(value: string): (r: Region)
      ensures r.minorUp == value
      ensures r.(minorUp := minorUp) == this
    {
      this.(minorUp := value)
    }

    /** Setter of the `majorup` property: changes that text and nothing else. */
    function SetMajorUp(value: string): (r: Region)
      ensures r.majorUp == value
      ensures r.(majorUp := majorUp) == this
    {
      this.(majorUp := value)
    }
  }

  /** The four booleans `valid_target` reads. */
  datatype Flags = Flags(execFounder: bool, execDelegate: bool, founderless: bool, passworded: bool)
  {
    /** `passworded` is an outer conjunct; the other three form the disjunction. */
    predicate Valid() {
      (!execFounder || execDelegate || founderless) && passworded
    }
  }

  /** The rule rejects a region exactly when it is not passworded, or when
      its founder is executive while its delegate is not executive and it
      does not carry the founderless tag. */
  lemma RejectedExactly(r: Region)
    ensures !r.ValidTarget() <==>
            !r.passworded || (r.execFounder && !r.execDelegate && !r.founderless)
  {
  }

  /** The rule reads only the four flags: two regions that agree on them
      agree on the verdict, whatever their names, populations, officers,
      embassies or update times. */
  lemma ValidTargetReadsOnlyFlags(a: Region, b: Region)
    requires a.execFounder == b.execFounder && a.execDelegate == b.execDelegate
    requires a.founderless == b.founderless && a.passworded == b.passworded
    ensures a.ValidTarget() == b.ValidTarget()
  {
  }

  /** Row `k` (0 <= k < 16) of the truth table, bits read from high to low as
      (execFounder, execDelegate, founderless, passworded). */
  function Row(k: nat): (f: Flags)
    requires k < 16
    ensures f.passworded == (k % 2 == 1) && f.execFounder == (k >= 8)
  {
    Flags(k / 8 % 2 == 1, k / 4 % 2 == 1, k / 2 % 2 == 1, k % 2 == 1)
  }

  /** Number of rows among the first `k` rows of the truth table on which the rule holds. */
  function CountValidRows(k: nat): (c: nat)
    requires k <= 16
    ensures c <= k
  {
    if k == 0 then 0
    else CountValidRows(k - 1) + (if Row(k - 1).Valid() then 1 else 0)
  }

  /** Every combination of the four flags is some row of the table, and no
      two rows coincide, so the table enumerates the 16 combinations once each. */
  lemma RowsEnumerateFlags(f: Flags)
    ensures exists k :: 0 <= k < 16 && Row(k) == f
  {
    var k := (if f.execFounder then 8 else 0) + (if f.execDelegate then 4 else 0)
           + (if f.founderless then 2 else 0) + (if f.passworded then 1 else 0);
    assert Row(k) == f;
  }

  lemma RowsDistinct(j: nat, k: nat)
    requires j < 16 && k < 16 && j != k
    ensures Row(j) != Row(k)
  {
  }

  /** Of the 16 flag combinations, exactly 7 make a valid target: the
      disjunction fails on one of its 8 rows, and the conjunct keeps only
      the passworded half. */
  lemma {:induction false} SevenValidRows()
    ensures CountValidRows(16) == 7
  {
    // rows 0-7: no executive founder, so the odd (passworded) half is valid
    assert CountValidRows(8) == 4;
    // rows 8 and 9: executive founder unchecked by delegate or founderless tag
    assert !Row(8).Valid() && !Row(9).Valid();
    assert CountValidRows(10) == 4;
    // rows 10-15: the disjunction holds, so again the odd half is valid
    assert CountValidRows(16) == CountValidRows(10) + 3;
  }
}

=== FILE: outcome.dfy ===
/** Small failure-carrying datatypes shared by the Lookout model.
    Python's `None` becomes `Option.None`; an exception that ends the run
    becomes `Result.Failure`. */
module Outcome {

  /** An optional value: `None` stands for Python's `None`. */
  datatype Option<+T> = None | Some(value: T)

  /** The outcome of a step that can raise: a value, or the error that stops the run. */
  datatype Result<+T, +E> = Success(value: T) | Failure(error: E)
}

=== FILE: report.dfy ===
/** The target decisions of the report rows in `main()` (main.py): the label
    in the first column, the fill chosen for each region, and the running
    nation total shown beside each region. Which sheet row a fill lands on
    is the layout of `Spreadsheet`. */
module Report {
  import opened Objects
  import opened Schedule

  /** The three fills a region can be given. */
  datatype Fill = Red | Yellow | Green

  /** The parts of one report row this model follows. */
  datatype Row = Row(mark: string, nations: nat, totalBefore: nat, minorUp: string, majorUp: string, fill: Fill)

  /** The first cell. Python parses the conditional expression as
      `(name + "~") if valid_target else ("*" if passworded else "")`, so the
      name is shown only for a valid target. */
  function Label(r: Region): (l: string)
    ensures r.ValidTarget() ==> l == r.name + "~"
    ensures !r.ValidTarget() && r.passworded ==> l == "*"
    ensures !r.passworded ==> l == ""
  {
    if r.ValidTarget() then r.name + "~" else if r.passworded then "*" else ""
  }

  /** What a reader of the sheet can tell from the first cell: a trailing
      `~` marks a valid target, and any mark at all a passworded region. */
  function ReadLabel(l: string): (status: (bool, bool)) {
    (|l| > 0 && l[|l| - 1] == '~', |l| > 0)
  }

  /** The label loses neither decision: it gives back whether the region is
      a valid target and whether it is passworded. */
  lemma LabelRoundTrip(r: Region)
    ensures ReadLabel(Label(r)) == (r.ValidTarget(), r.passworded)
  {
  }

  /** The fill chosen for a region: red unless a valid target, then green when
      not passworded and founderless, yellow otherwise. The green case asks
      for a valid target that is not passworded, which the target rule rules
      out, so it never happens and every valid target is yellow. */
  function RowFill(r: Region): (f: Fill)
    ensures f == Red <==> !r.ValidTarget()
    ensures f != Green
    ensures r.ValidTarget() ==> f == Yellow
  {
    if !r.ValidTarget() then Red
    else if !r.passworded && r.founderless then Green
    else Yellow
  }

  /** The row for region `r` at prefix entry `n`: the label and the fill of the region,
      the region's nations beside the running total, and its two estimates. */
  function MakeRow(r: Region, n: nat): (row: Row)
    ensures row.nations == r.numNations && row.totalBefore == n
    ensures row.minorUp == r.minorUp && row.majorUp == r.majorUp
    ensures ReadLabel(row.mark) == (r.ValidTarget(), r.passworded)
    ensures row.fill == Red <==> !ReadLabel(row.mark).0
    ensures row.mark == Label(r) && row.fill == RowFill(r)
  {
    LabelRoundTrip(r);
    Row(Label(r), r.numNations, n, r.minorUp, r.majorUp, RowFill(r))
  }

  /** One row per region, in census order: its label, its nations, the
      number of nations in the regions before it, its two estimate texts, and
      a fill that is red exactly when it is not a valid target. */
  function Rows(regions: seq<Region>, cnations: seq<nat>): (rows: seq<Row>)
    requires IsPrefixSums(regions, cnations)
    ensures |rows| == |regions|
    ensures forall i :: 0 <= i < |regions| ==>
      && rows[i].mark == Label(regions[i])
      && rows[i].nations == regions[i].numNations
      && rows[i].minorUp == regions[i].minorUp
      && rows[i].majorUp == regions[i].majorUp
      && rows[i].totalBefore == Population(regions[..i])
      && rows[i].totalBefore + rows[i].nations == Population(regions[..i + 1])
      && rows[i].fill != Green
      && (rows[i].fill == Red <==> !regions[i].ValidTarget())
  {
    forall i | 0 <= i <= |regions|
      ensures cnations[i] == Population(regions[..i])
    {
      PrefixIsPopulation(regions, cnations, i);
    }
    seq(|regions|, i requires 0 <= i < |regions| => MakeRow(regions[i], cnations[i]))
  }
}

=== FILE: schedule.dfy ===
/** The schedule estimator in `main()` (main.py): merging the two status
    lists onto the parsed regions, the census population and its running
    prefix, the length of the two update passes, and each region's estimated
    offset into each pass, written as `S:M:H` text. */
module Schedule {
  import opened Outcome
  import opened Objects
  import opened Clock

  /** Seconds the minor update is taken to last; fixed, not measured. */
  const MinorLength: int := 2640

  /** Why no schedule can be estimated: the census has no region (the first
      and last region do not exist), or no nation (the division by the
      population total fails). */
  datatype ScheduleError = NoRegions | NoNations

  /** Everything the estimator hands to the report. */
  datatype Survey = Survey(
    regions: seq<Region>,
    cnations: seq<nat>,
    totalNations: nat,
    majorLength: int,
    minorLength: int)

  /** Number of nations in `rs`. */
  function Population(rs: seq<Region>): nat
    decreases |rs|
  {
    if |rs| == 0 then 0 else Population(rs[..|rs| - 1]) + rs[|rs| - 1].numNations
  }

  /** Length of the major pass of a census: the seconds from the first
      region's update to the last one's. The code takes `int()` of a
      difference of whole timestamps, which changes nothing. */
  function MajorLength(rs: seq<Region>): int
    requires |rs| > 0
  {
    rs[|rs| - 1].updateTime - rs[0].updateTime
  }

  lemma PopulationSnoc(rs: seq<Region>, i: nat)
    requires i < |rs|
    ensures Population(rs[..i + 1]) == Population(rs[..i]) + rs[i].numNations
  {
    assert rs[..i + 1][..i] == rs[..i];
  }

  /** `r` is `p` after the merge: each flag raised when the name is listed,
      left as it was otherwise, and every other field untouched. */
  ghost predicate MergedOne(p: Region, passwordedNames: seq<string>, founderlessNames: seq<string>, r: Region) {
    && (r.passworded <==> p.passworded || p.name in passwordedNames)
    && (r.founderless <==> p.founderless || p.name in founderlessNames)
    && r.(passworded := p.passworded, founderless := p.founderless) == p
  }

  /** The region `p` becomes once the status lists are merged onto it. */
  function Listed(p: Region, passwordedNames: seq<string>, founderlessNames: seq<string>): (r: Region)
    ensures MergedOne(p, passwordedNames, founderlessNames, r)
  {
    p.(passworded := p.passworded || p.name in passwordedNames,
       founderless := p.founderless || p.name in founderlessNames)
  }

  /** The merge relation leaves no choice: it is `Listed`. */
  lemma MergedIsListed(p: Region, passwordedNames: seq<string>, founderlessNames: seq<string>, r: Region)
    requires MergedOne(p, passwordedNames, founderlessNames, r)
    ensures r == Listed(p, passwordedNames, founderlessNames)
  {
  }

  ghost predicate Merged(parsed: seq<Region>, passwordedNames: seq<string>, founderlessNames: seq<string>, regions: seq<Region>) {
    && |regions| == |parsed|
    && forall i :: 0 <= i < |parsed| ==> MergedOne(parsed[i], passwordedNames, founderlessNames, regions[i])
  }

  /** The loop over the parsed census: raise each region's passworded and
      founderless flags when its name is on the matching list, keep the
      regions in census order, and total their nations. */
  method MergeFlags(parsed: seq<Region>, passwordedNames: seq<string>, founderlessNames: seq<string>)
    returns (regions: seq<Region>, total: nat)
    ensures Merged(parsed, passwordedNames, founderlessNames, regions)
    ensures total == Population(parsed)
  {
    regions := [];
    total := 0;
    for i := 0 to |parsed|
      invariant |regions| == i
      invariant forall j :: 0 <= j < i ==> MergedOne(parsed[j], passwordedNames, founderlessNames, regions[j])
      invariant total == Population(parsed[..i])
    {
      var region := parsed[i];
      if region.name in passwordedNames {
        region := region.SetPassworded(true);
      }
      if region.name in founderlessNames {
        region := region.SetFounderless(true);
      }
      regions := regions + [region];
      total := total + region.numNations;
      PopulationSnoc(parsed, i);
    }
    assert parsed[..|parsed|] == parsed;
  }

  /** Regions fresh from the census carry neither flag, so after the merge a
      flag is set exactly when the region's name is on its list. */
  lemma MergedFlagsFollowLists(parsed: seq<Region>, passwordedNames: seq<string>, founderlessNames: seq<string>, regions: seq<Region>)
    requires Merged(parsed, passwordedNames, founderlessNames, regions)
    requires forall i :: 0 <= i < |parsed| ==> !parsed[i].passworded && !parsed[i].founderless
    ensures forall i :: 0 <= i < |regions| ==>
      && (regions[i].passworded <==> regions[i].name in passwordedNames)
      && (regions[i].founderless <==> regions[i].name in founderlessNames)
  {
    forall i | 0 <= i < |regions|
      ensures regions[i].name == parsed[i].name
    {
      assert MergedOne(parsed[i], passwordedNames, founderlessNames, regions[i]);
    }
  }

  /** The merge leaves every population alone, so the total is unchanged. */
  lemma {:induction false} MergePreservesPopulation(parsed: seq<Region>, passwordedNames: seq<string>, founderlessNames: seq<string>, regions: seq<Region>)
    requires Merged(parsed, passwordedNames, founderlessNames, regions)
    ensures Population(regions) == Population(parsed)
    decreases |parsed|
  {
    if |parsed| > 0 {
      var k := |parsed| - 1;
      assert MergedOne(parsed[k], passwordedNames, founderlessNames, regions[k]);
      assert Merged(parsed[..k], passwordedNames, founderlessNames, regions[..k]) by {
        forall i | 0 <= i < k
          ensures MergedOne(parsed[..k][i], passwordedNames, founderlessNames, regions[..k][i])
        {
          assert MergedOne(parsed[i], passwordedNames, founderlessNames, regions[i]);
        }
      }
      MergePreservesPopulation(parsed[..k], passwordedNames, founderlessNames, regions[..k]);
    }
  }

  /** `c[i]` is the number of nations in the regions before region `i`. */
  ghost predicate IsPrefixSums(regions: seq<Region>, c: seq<nat>) {
    && |c| == |regions| + 1
    && c[0] == 0
    && forall i :: 0 <= i < |regions| ==> c[i + 1] == c[i] + regions[i].numNations
  }

  /** The `cnations` loop: starting from [0], append the previous entry plus
      the next region's nations. The fallback branch for an empty list can
      never run, because the list starts non-empty and only grows. */
  method CumulativeNations(regions: seq<Region>) returns (cnations: seq<nat>)
    ensures IsPrefixSums(regions, cnations)
    ensures forall i :: 0 <= i <= |regions| ==> cnations[i] == Population(regions[..i])
  {
    cnations := [0];
    for i := 0 to |regions|
      invariant |cnations| == i + 1
      invariant cnations[0] == 0
      invariant forall j :: 0 <= j < i ==> cnations[j + 1] == cnations[j] + regions[j].numNations
    {
      if |cnations| > 0 {
        cnations := cnations + [cnations[|cnations| - 1] + regions[i].numNations];
      } else {
        assert false;
      }
    }
    forall i | 0 <= i <= |regions|
      ensures cnations[i] == Population(regions[..i])
    {
      PrefixIsPopulation(regions, cnations, i);
    }
  }

  /** Any sequence obeying the prefix recurrence holds, at each position,
      the population of the regions before it. */
  lemma {:induction false} PrefixIsPopulation(regions: seq<Region>, c: seq<nat>, i: nat)
    requires IsPrefixSums(regions, c)
    requires i <= |regions|
    ensures c[i] == Population(regions[..i])
  {
    if i > 0 {
      PrefixIsPopulation(regions, c, i - 1);
      assert regions[..i][..i - 1] == regions[..i - 1];
    }
  }

  /** The prefix never decreases along the census. */
  lemma {:induction false} PrefixMonotone(regions: seq<Region>, c: seq<nat>, i: nat, j: nat)
    requires IsPrefixSums(regions, c)
    requires i <= j <= |regions|
    ensures c[i] <= c[j]
    decreases j - i
  {
    if i < j {
      PrefixMonotone(regions, c, i, j - 1);
    }
  }

  /** The last entry is the census total, and the last region's own entry is
      the total less its own nations. */
  lemma PrefixEnds(regions: seq<Region>, c: seq<nat>)
    requires IsPrefixSums(regions, c)
    requires |regions| > 0
    ensures c[|regions|] == Population(regions)
    ensures c[|regions| - 1] == Population(regions) - regions[|regions| - 1].numNations
  {
    PrefixIsPopulation(regions, c, |regions|);
    assert regions[..|regions|] == regions;
  }

  /** Python's `int()` of the quotient `a / b`: truncation toward zero. */
  function TruncDiv(a: int, b: int): int
    requires b > 0
  {
    if a >= 0 then a / b else -((-a) / b)
  }

  /** Seconds into a pass of `length` seconds at which the region reached
      after `n` of the `total` nations updates. */
  function UpdateOffset(n: nat, length: int, total: nat): int
    requires total > 0
  {
    TruncDiv(n * length, total)
  }

  lemma FloorDivBounds(a: nat, b: nat)
    requires b > 0
    ensures 0 <= a / b && (a / b) * b <= a < (a / b) * b + b
  {
    var q, r := a / b, a % b;
    assert a == b * q + r;
    assert 0 <= r < b;
  }

  /** Truncation toward zero: the quotient is the multiple of `b` nearest
      to `a` on the side of zero, and has the sign of `a`. */
  lemma TruncDivBounds(a: int, b: int)
    requires b > 0
    ensures a >= 0 ==> 0 <= TruncDiv(a, b) && TruncDiv(a, b) * b <= a < TruncDiv(a, b) * b + b
    ensures a < 0 ==> TruncDiv(a, b) <= 0 && TruncDiv(a, b) * b - b < a <= TruncDiv(a, b) * b
  {
    if a >= 0 {
      FloorDivBounds(a, b);
    } else {
      FloorDivBounds(-a, b);
      var q := (-a) / b;
      assert TruncDiv(a, b) == -q;
      assert (-q) * b == -(q * b);
    }
  }

  /** With a non-negative pass length the offset is the floor of the exact
      share `n * length / total`. */
  lemma OffsetIsFloor(n: nat, length: int, total: nat)
    requires total > 0 && length >= 0
    ensures UpdateOffset(n, length, total) * total <= n * length < UpdateOffset(n, length, total) * total + total
  {
    TruncDivBounds(n * length, total);
  }

  /** The first region of the census is reached at the start of either pass. */
  lemma OffsetOfFirst(length: int, total: nat)
    requires total > 0
    ensures UpdateOffset(0, length, total) == 0
  {
  }

  lemma MulMonotone(a: nat, b: nat, c: nat)
    requires a <= b
    ensures a * c <= b * c
  {
  }

  lemma MulCancel(x: int, y: int, d: nat)
    requires d > 0 && x * d < y * d
    ensures x < y
  {
  }

  /** Floor division by a positive divisor keeps the order of its dividends. */
  lemma {:induction false} FloorDivMonotone(a: nat, b: nat, d: nat)
    requires a <= b && d > 0
    ensures a / d <= b / d
  {
    assert (a / d) * d <= a;
    assert b < (b / d + 1) * d;
    MulCancel(a / d, b / d + 1, d);
  }

  /** With a non-negative pass length, a region later in the census is never
      estimated to update earlier. */
  lemma {:induction false} OffsetMonotone(n1: nat, n2: nat, length: int, total: nat)
    requires total > 0 && length >= 0 && n1 <= n2
    ensures UpdateOffset(n1, length, total) <= UpdateOffset(n2, length, total)
  {
    MulMonotone(n1, n2, length);
    FloorDivMonotone(n1 * length, n2 * length, total);
  }

  /** A region inside the census is estimated to update within the pass. */
  lemma {:induction false} OffsetWithinPass(n: nat, length: int, total: nat)
    requires total > 0 && length >= 0 && n <= total
    ensures 0 <= UpdateOffset(n, length, total) <= length
  {
    var t := UpdateOffset(n, length, total);
    TruncDivBounds(n * length, total);
    MulMonotone(n, total, length);
    assert t * total <= total * length;
    assert (length + 1) * total == total * length + total;
    MulCancel(t, length + 1, total);
  }

  /** `o` carries the estimate texts for the prefix `n`: the `S:M:H` text of
      its truncated offset into each pass. */
  ghost predicate HasEstimates(o: Region, n: nat, total: nat, majorLength: int)
    requires total > 0
  {
    && o.minorUp == ClockText(UpdateOffset(n, MinorLength, total))
    && o.majorUp == ClockText(UpdateOffset(n, majorLength, total))
  }

  /** Writes one region's minor and major estimate texts for the prefix `n`,
      changing nothing else. */
  function WithEstimates(r: Region, n: nat, total: nat, majorLength: int): (o: Region)
    requires total > 0
    ensures o.(minorUp := r.minorUp, majorUp := r.majorUp) == r
    ensures HasEstimates(o, n, total, majorLength)
  {
    var t := UpdateOffset(n, MinorLength, total);
    var m := UpdateOffset(n, majorLength, total);
    r.SetMinorUp(ClockText(t)).SetMajorUp(ClockText(m))
  }

  /** The texts written for a region read back as its two truncated offsets:
      the estimate is recoverable from the sheet. */
  lemma EstimatesReadBack(r: Region, n: nat, total: nat, majorLength: int)
    requires total > 0
    ensures ParseClock(WithEstimates(r, n, total, majorLength).minorUp)
            == Some(Reading(UpdateOffset(n, MinorLength, total)))
    ensures ParseClock(WithEstimates(r, n, total, majorLength).majorUp)
            == Some(Reading(UpdateOffset(n, majorLength, total)))
  {
    ClockTextRoundTrip(UpdateOffset(n, MinorLength, total));
    ClockTextRoundTrip(UpdateOffset(n, majorLength, total));
  }

  /** The loop pairing each region with its own prefix entry and writing its
      minor and major estimate texts; nothing else about a region changes. */
  method Annotate(regions: seq<Region>, cnations: seq<nat>, total: nat, majorLength: int)
    returns (out: seq<Region>)
    requires |cnations| >= |regions|
    requires total > 0
    ensures |out| == |regions|
    ensures forall i :: 0 <= i < |regions| ==>
      out[i].(minorUp := regions[i].minorUp, majorUp := regions[i].majorUp) == regions[i]
    ensures forall i :: 0 <= i < |regions| ==> HasEstimates(out[i], cnations[i], total, majorLength)
  {
    out := [];
    for i := 0 to |regions|
      invariant |out| == i
      invariant forall j :: 0 <= j < i ==> out[j] == WithEstimates(regions[j], cnations[j], total, majorLength)
    {
      out := out + [WithEstimates(regions[i], cnations[i], total, majorLength)];
    }
    forall j | 0 <= j < |regions|
      ensures out[j].(minorUp := regions[j].minorUp, majorUp := regions[j].majorUp) == regions[j]
      ensures HasEstimates(out[j], cnations[j], total, majorLength)
    {
      assert out[j] == WithEstimates(regions[j], cnations[j], total, majorLength);
    }
  }

  /** `s` is the survey of the census `parsed`: one region per census region
      in the same order with its flags merged and nothing else but its
      estimates changed, the census total, the population before each region,
      the major pass measured from the first and last region's update times,
      and the fixed minor pass. */
  ghost predicate IsSurveyOf(parsed: seq<Region>, passwordedNames: seq<string>, founderlessNames: seq<string>, s: Survey) {
    && |parsed| > 0
    && |s.regions| == |parsed|
    && s.totalNations == Population(parsed) > 0
    && IsPrefixSums(parsed, s.cnations)
    && s.minorLength == MinorLength
    && s.majorLength == MajorLength(parsed)
    && forall i :: 0 <= i < |parsed| ==>
         MergedOne(parsed[i], passwordedNames, founderlessNames,
                   s.regions[i].(minorUp := parsed[i].minorUp, majorUp := parsed[i].majorUp))
  }

  /** Every region of the survey carries the estimate texts of its own prefix entry. */
  ghost predicate EstimatesWritten(s: Survey) {
    && s.totalNations > 0
    && |s.cnations| >= |s.regions|
    && forall i :: 0 <= i < |s.regions| ==> HasEstimates(s.regions[i], s.cnations[i], s.totalNations, s.majorLength)
  }

  /** The merge changes no population, so the prefix of the merged regions is
      the prefix of the census. */
  lemma MergedPrefix(parsed: seq<Region>, passwordedNames: seq<string>, founderlessNames: seq<string>,
                     regions: seq<Region>, cnations: seq<nat>)
    requires Merged(parsed, passwordedNames, founderlessNames, regions)
    requires IsPrefixSums(regions, cnations)
    ensures IsPrefixSums(parsed, cnations)
  {
    forall i | 0 <= i < |parsed|
      ensures regions[i].numNations == parsed[i].numNations
    {
      assert MergedOne(parsed[i], passwordedNames, founderlessNames, regions[i]);
    }
  }

  lemma SurveyFromSteps(parsed: seq<Region>, passwordedNames: seq<string>, founderlessNames: seq<string>,
                        regions: seq<Region>, total: nat, cnations: seq<nat>, majorLength: int, annotated: seq<Region>)
    requires |parsed| > 0
    requires Merged(parsed, passwordedNames, founderlessNames, regions)
    requires total == Population(parsed) > 0
    requires IsPrefixSums(regions, cnations)
    requires majorLength == MajorLength(regions)
    requires |annotated| == |regions|
    requires forall i :: 0 <= i < |regions| ==>
      annotated[i].(minorUp := regions[i].minorUp, majorUp := regions[i].majorUp) == regions[i]
    ensures IsSurveyOf(parsed, passwordedNames, founderlessNames, Survey(annotated, cnations, total, majorLength, MinorLength))
  {
    MergedPrefix(parsed, passwordedNames, founderlessNames, regions, cnations);
    assert MergedOne(parsed[0], passwordedNames, founderlessNames, regions[0]);
    assert MergedOne(parsed[|parsed| - 1], passwordedNames, founderlessNames, regions[|parsed| - 1]);
    forall i | 0 <= i < |parsed|
      ensures MergedOne(parsed[i], passwordedNames, founderlessNames,
                        annotated[i].(minorUp := parsed[i].minorUp, majorUp := parsed[i].majorUp))
    {
      assert MergedOne(parsed[i], passwordedNames, founderlessNames, regions[i]);
    }
  }

  /** The estimator of `main()`: merge the status lists, total the nations,
      build the prefix, measure the major pass from the first and last
      region's update times, and write every region's estimates. An empty
      census fails before any estimate (there is no first region), and a
      census without nations fails at the first division. */
  method Estimate(parsed: seq<Region>, passwordedNames: seq<string>, founderlessNames: seq<string>)
    returns (r: Result<Survey, ScheduleError>)
    ensures r.Failure? <==> |parsed| == 0 || Population(parsed) == 0
    ensures r.Failure? ==> (r.error == NoRegions <==> |parsed| == 0)
    ensures r.Success? ==> IsSurveyOf(parsed, passwordedNames, founderlessNames, r.value)
    ensures r.Success? ==> EstimatesWritten(r.value)
  {
    var regions, total := MergeFlags(parsed, passwordedNames, founderlessNames);
    var cnations := CumulativeNations(regions);
    if |regions| == 0 {
      return Failure(NoRegions);
    }
    var majorLength := MajorLength(regions);
    if total == 0 {
      return Failure(NoNations);
    }
    var annotated := Annotate(regions, cnations, total, majorLength);
    SurveyFromSteps(parsed, passwordedNames, founderlessNames, regions, total, cnations, majorLength, annotated);
    return Success(Survey(annotated, cnations, total, majorLength, MinorLength));
  }

  /** Along the census, with a non-negative major length, both estimates
      start at 0, never decrease, and stay within their pass. */
  lemma ScheduleOrdered(regions: seq<Region>, c: seq<nat>, majorLength: int, i: nat, j: nat)
    requires IsPrefixSums(regions, c)
    requires Population(regions) > 0
    requires majorLength >= 0
    requires i <= j < |regions|
    ensures UpdateOffset(c[0], MinorLength, Population(regions)) == 0
    ensures UpdateOffset(c[0], majorLength, Population(regions)) == 0
    ensures 0 <= UpdateOffset(c[i], MinorLength, Population(regions))
              <= UpdateOffset(c[j], MinorLength, Population(regions)) <= MinorLength
    ensures 0 <= UpdateOffset(c[i], majorLength, Population(regions))
              <= UpdateOffset(c[j], majorLength, Population(regions)) <= majorLength
  {
    var total := Population(regions);
    PrefixMonotone(regions, c, i, j);
    PrefixMonotone(regions, c, j, |regions|);
    PrefixEnds(regions, c);
    OffsetMonotone(c[i], c[j], MinorLength, total);
    OffsetMonotone(c[i], c[j], majorLength, total);
    OffsetWithinPass(c[i], MinorLength, total);
    OffsetWithinPass(c[j], MinorLength, total);
    OffsetWithinPass(c[i], majorLength, total);
    OffsetWithinPass(c[j], majorLength, total);
  }

  /** A region with no nation before it reads "0:0:0" in a pass of any length. */
  lemma StartText(length: int, total: nat)
    requires total > 0
    ensures ClockText(UpdateOffset(0, length, total)) == "0:0:0"
  {
    OffsetOfFirst(length, total);
    ReadingUnique(UpdateOffset(0, length, total), ClockReading(0, 0, 0));
    ClockTextZero(UpdateOffset(0, length, total));
  }

  /** The first region of a survey has no nation before it, so both its
      texts read "0:0:0". */
  lemma FirstRegionTexts(s: Survey)
    requires EstimatesWritten(s)
    requires |s.regions| > 0 && s.cnations[0] == 0
    ensures s.regions[0].minorUp == "0:0:0" && s.regions[0].majorUp == "0:0:0"
  {
    assert HasEstimates(s.regions[0], 0, s.totalNations, s.majorLength);
    StartText(MinorLength, s.totalNations);
    StartText(s.majorLength, s.totalNations);
  }

  /** A census of a single region: the first region is also the last, so
      the major pass measures 0 seconds, and the region, with no nation before
      it, is estimated at the start of both passes. */
  lemma SingleRegion(p: Region, passwordedNames: seq<string>, founderlessNames: seq<string>, s: Survey)
    requires IsSurveyOf([p], passwordedNames, founderlessNames, s)
    requires EstimatesWritten(s)
    ensures s.majorLength == 0
    ensures s.regions[0].minorUp == "0:0:0" && s.regions[0].majorUp == "0:0:0"
  {
    FirstRegionTexts(s);
  }

  /** The texts of 300 nations out of 1000, in a 1000-second major pass and in the minor pass. */
  lemma ThreeHundredOfAThousand()
    ensures ClockText(UpdateOffset(300, 1000, 1000)) == "0:5:0"
    ensures ClockText(UpdateOffset(300, MinorLength, 1000)) == "12:13:0"
  {
    assert UpdateOffset(300, 1000, 1000) == 300;
    assert UpdateOffset(300, MinorLength, 1000) == 792;
    assert Reading(300) == ClockReading(0, 5, 0);
    assert Reading(792) == ClockReading(12, 13, 0);
    assert NatText(12) == "12" && NatText(13) == "13";
  }

  /** Populations 100, 200 and 700, with the last region updating 1000
      seconds after the first: the third region has 300 nations before it,
      so it is estimated 300 seconds ("0:5:0") into the major pass and 792
      seconds ("12:13:0") into the minor one. */
  lemma WorkedExample(parsed: seq<Region>, passwordedNames: seq<string>, founderlessNames: seq<string>, s: Survey)
    requires |parsed| == 3
    requires parsed[0].numNations == 100 && parsed[1].numNations == 200 && parsed[2].numNations == 700
    requires MajorLength(parsed) == 1000
    requires IsSurveyOf(parsed, passwordedNames, founderlessNames, s)
    requires EstimatesWritten(s)
    ensures s.cnations[2] == 300 && s.totalNations == 1000 && s.majorLength == 1000
    ensures s.regions[2].majorUp == "0:5:0"
    ensures s.regions[2].minorUp == "12:13:0"
  {
    PrefixEnds(parsed, s.cnations);
    assert s.cnations[2] == 300 && s.totalNations == 1000;
    assert HasEstimates(s.regions[2], 300, 1000, 1000);
    ThreeHundredOfAThousand();
  }
}

=== FILE: spreadsheet.dfy ===
/** The sheet `main()` builds from the survey (main.py): the colours of the
    three fills, the world data cells beside the table, the region rows and
    the sheet rows they and their fills land on, and the lookup of the sheet
    by its title before it is saved. The fill colours, each cell that divides,
    the placing of the fills, and the lookup are each given twice: as the code
    does it, and as it is evidently meant. */
module Spreadsheet {
  import opened Outcome
  import opened Objects
  import opened Schedule
  import opened Report

  /** The exact quotient `num / den` that a floating-point cell stands for. */
  datatype Ratio = Ratio(num: int, den: int)

  /** `a` and `b` are each other's reciprocal: both are defined and their product is 1. */
  ghost predicate Reciprocal(a: Ratio, b: Ratio) {
    a.den != 0 && b.den != 0 && a.num * b.num == a.den * b.den
  }

  /** The world data cells M2 to M8. */
  datatype WorldData = WorldData(
    nations: nat,                       // M2, the census total
    majorLength: int,                   // M3
    majorSecsPerNation: Ratio,          // M4
    majorNationsPerSec: Option<Ratio>,  // M5, blank when the major pass takes no time
    minorLength: int,                   // M6
    minorSecsPerNation: Ratio,          // M7
    minorNationsPerSec: Ratio)          // M8

  /** Why the sheet is not saved: a fill colour is not an RGB or aRGB hex
      value (`ValueError`), a cell divides by zero (`ZeroDivisionError`), or
      no sheet has the title looked up (`KeyError`). */
  datatype SheetError = BadColour(colour: string) | DivisionByZero(cell: string) | MissingSheet(title: string)

  predicate IsHexDigit(ch: char) {
    '0' <= ch <= '9' || 'a' <= ch <= 'f' || 'A' <= ch <= 'F'
  }

  /** What the spreadsheet library accepts as a colour: exactly 6 (RGB) or
      8 (aRGB) hex digits. */
  predicate IsColourText(hex: string) {
    (|hex| == 6 || |hex| == 8) && forall i :: 0 <= i < |hex| ==> IsHexDigit(hex[i])
  }

  /** A colour as the library stores it: an aRGB value, with the alpha byte
      "00" put in front of an RGB one, or `ValueError` for any other text. */
  function Colour(hex: string): (r: Result<string, SheetError>)
    ensures r.Success? <==> IsColourText(hex)
    ensures r.Failure? ==> r.error == BadColour(hex)
    ensures r.Success? ==> |r.value| == 8 && r.value[8 - |hex|..] == hex
    ensures r.Success? && |hex| == 6 ==> r.value[..2] == "00"
  {
    if !IsColourText(hex) then Failure(BadColour(hex))
    else if |hex| == 6 then Success("00" + hex)
    else Success(hex)
  }

  /** The two colours of a solid pattern fill, as stored. */
  datatype PatternColours = PatternColours(start: string, end: string)

  /** A solid pattern fill from its start and end colours; the start colour
      is checked first. */
  function SolidFill(start: string, end: string): (r: Result<PatternColours, SheetError>)
    ensures r.Success? <==> IsColourText(start) && IsColourText(end)
    ensures !IsColourText(start) ==> r == Failure(BadColour(start))
    ensures IsColourText(start) && !IsColourText(end) ==> r == Failure(BadColour(end))
    ensures r.Success? ==> Colour(start) == Success(r.value.start) && Colour(end) == Success(r.value.end)
  {
    match Colour(start)
    case Failure(e) => Failure(e)
    case Success(s) =>
      match Colour(end)
      case Failure(e) => Failure(e)
      case Success(t) => Success(PatternColours(s, t))
  }

  /** The three fills of the report, by the fill they stand for. */
  datatype Palette = Palette(red: PatternColours, yellow: PatternColours, green: PatternColours)

  const RedHex: string := "FF0000"
  const YellowHex: string := "FFFF00"
  const GreenHex: string := "00FF00"

  /** The start colour the code gives the yellow fill: five hex digits. */
  const YellowStartAsWritten: string := "FFF00"

  /** The three fills built in order, red, yellow, green, each from the same
      start and end colour except the yellow start, which is `yellowStart`.
      The red fill is built first and never fails, so the palette fails
      exactly when `yellowStart` is no colour, and then names it. */
  function BuildPalette(yellowStart: string): (r: Result<Palette, SheetError>)
    ensures r.Success? <==> IsColourText(yellowStart)
    ensures r.Failure? ==> r.error == BadColour(yellowStart)
    ensures r.Success? ==>
      && r.value.red == PatternColours("00" + RedHex, "00" + RedHex)
      && r.value.yellow.end == "00" + YellowHex
      && Colour(yellowStart) == Success(r.value.yellow.start)
      && r.value.green == PatternColours("00" + GreenHex, "00" + GreenHex)
  {
    assert IsColourText(RedHex) && IsColourText(YellowHex) && IsColourText(GreenHex);
    match SolidFill(RedHex, RedHex)
    case Failure(e) => Failure(e)
    case Success(red) =>
      match SolidFill(yellowStart, YellowHex)
      case Failure(e) => Failure(e)
      case Success(yellow) =>
        match SolidFill(GreenHex, GreenHex)
        case Failure(e) => Failure(e)
        case Success(green) => Success(Palette(red, yellow, green))
  }

  /** The fills as the code builds them: the yellow start colour "FFF00" has
      five hex digits, so building the yellow fill raises `ValueError`, before
      any cell is written. */
  function FillColoursAsWritten(): (r: Result<Palette, SheetError>)
    ensures r == Failure(BadColour(YellowStartAsWritten))
  {
    assert |YellowStartAsWritten| == 5;
    BuildPalette(YellowStartAsWritten)
  }

  /** The fills as meant: the yellow fill starts at the colour it ends at,
      "FFFF00", so all three fills are built and each is one solid colour. */
  function FillColours(): (r: Result<Palette, SheetError>)
    ensures r.Success?
    ensures r.value.red.start == r.value.red.end == "00" + RedHex
    ensures r.value.yellow.start == r.value.yellow.end == "00" + YellowHex
    ensures r.value.green.start == r.value.green.end == "00" + GreenHex
  {
    assert IsColourText(YellowHex);
    BuildPalette(YellowHex)
  }

  /** The world data cells as the code fills them. `M4` and `M7` divide by
      the census total, `M5` takes the reciprocal of the major seconds per
      nation, and `M8` that of the minor seconds per nation; each of the three
      fails when its divisor is 0. */
  function WorldCellsAsWritten(s: Survey): (r: Result<WorldData, SheetError>)
    ensures r.Failure? <==> s.totalNations == 0 || s.majorLength == 0 || s.minorLength == 0
    ensures s.totalNations > 0 && s.majorLength == 0 ==> r == Failure(DivisionByZero("M5"))
    ensures r.Success? ==>
      && r.value.nations == s.totalNations
      && r.value.majorLength == s.majorLength
      && r.value.minorLength == s.minorLength
      && r.value.majorSecsPerNation == Ratio(s.majorLength, s.totalNations)
      && r.value.minorSecsPerNation == Ratio(s.minorLength, s.totalNations)
      && r.value.majorNationsPerSec.Some?
      && Reciprocal(r.value.majorSecsPerNation, r.value.majorNationsPerSec.value)
      && Reciprocal(r.value.minorSecsPerNation, r.value.minorNationsPerSec)
  {
    if s.totalNations == 0 then Failure(DivisionByZero("M4"))
    else if s.majorLength == 0 then Failure(DivisionByZero("M5"))
    else if s.minorLength == 0 then Failure(DivisionByZero("M8"))
    else
      Success(WorldData(
        s.totalNations,
        s.majorLength, Ratio(s.majorLength, s.totalNations), Some(Ratio(s.totalNations, s.majorLength)),
        s.minorLength, Ratio(s.minorLength, s.totalNations), Ratio(s.totalNations, s.minorLength)))
  }

  /** The world data cells as meant: a major pass of no length has no
      nations-per-second rate, so `M5` is left blank instead of dividing by 0.
      Wherever the code's cells exist, these are the same cells. */
  function WorldCells(s: Survey): (r: Result<WorldData, SheetError>)
    ensures r.Failure? <==> s.totalNations == 0 || s.minorLength == 0
    ensures r.Success? ==>
      && r.value.nations == s.totalNations
      && r.value.majorLength == s.majorLength
      && r.value.minorLength == s.minorLength
      && r.value.majorSecsPerNation == Ratio(s.majorLength, s.totalNations)
      && r.value.minorSecsPerNation == Ratio(s.minorLength, s.totalNations)
      && (r.value.majorNationsPerSec.None? <==> s.majorLength == 0)
      && (r.value.majorNationsPerSec.Some? ==>
            Reciprocal(r.value.majorSecsPerNation, r.value.majorNationsPerSec.value))
      && Reciprocal(r.value.minorSecsPerNation, r.value.minorNationsPerSec)
    ensures WorldCellsAsWritten(s).Success? ==> r == WorldCellsAsWritten(s)
  {
    if s.totalNations == 0 then Failure(DivisionByZero("M4"))
    else if s.minorLength == 0 then Failure(DivisionByZero("M8"))
    else
      Success(WorldData(
        s.totalNations,
        s.majorLength, Ratio(s.majorLength, s.totalNations),
        if s.majorLength == 0 then None else Some(Ratio(s.totalNations, s.majorLength)),
        s.minorLength, Ratio(s.minorLength, s.totalNations), Ratio(s.totalNations, s.minorLength)))
  }

  /** The sheet titles of a workbook, in order, and the index of the active sheet. */
  datatype Workbook = Workbook(titles: seq<string>, active: nat)

  /** The title a new workbook gives its only sheet. */
  const DefaultTitle: string := "Sheet"

  /** The title the code looks the sheet up by. */
  const DataTitle: string := "Lookout Data"

  /** A new workbook: one sheet, with the default title, and active. */
  function NewWorkbook(): Workbook {
    Workbook([DefaultTitle], 0)
  }

  /** The workbook with its active sheet renamed. */
  function Retitle(wb: Workbook, title: string): (r: Workbook)
    requires wb.active < |wb.titles|
    ensures |r.titles| == |wb.titles| && r.active == wb.active
    ensures r.titles[r.active] == title
    ensures forall i :: 0 <= i < |wb.titles| && i != wb.active ==> r.titles[i] == wb.titles[i]
  {
    wb.(titles := wb.titles[wb.active := title])
  }

  /** `wb[title]`: the position of the first sheet with that title, or a
      `KeyError` when there is none. */
  function SheetIndex(titles: seq<string>, title: string): (r: Result<nat, SheetError>)
    ensures r.Failure? <==> title !in titles
    ensures r.Failure? ==> r.error == MissingSheet(title)
    ensures r.Success? ==> r.value < |titles| && titles[r.value] == title && title !in titles[..r.value]
    decreases |titles|
  {
    if |titles| == 0 then Failure(MissingSheet(title))
    else if titles[0] == title then Success(0)
    else
      match SheetIndex(titles[1..], title)
      case Failure(e) =>
        assert titles == [titles[0]] + titles[1..];
        Failure(e)
      case Success(k) =>
        assert titles[..k + 1] == [titles[0]] + titles[1..][..k];
        Success(k + 1)
  }

  /** As written, the sheet is looked up by a title no sheet of a new
      workbook has, so the lookup fails. */
  lemma DataSheetMissing()
    ensures SheetIndex(NewWorkbook().titles, DataTitle) == Failure(MissingSheet(DataTitle))
  {
  }

  /** Once the active sheet carries the title, and no sheet before it does,
      looking the title up finds the active sheet: the one the rows went to. */
  lemma RetitledSheetFound(wb: Workbook)
    requires wb.active < |wb.titles|
    requires DataTitle !in wb.titles[..wb.active]
    ensures SheetIndex(Retitle(wb, DataTitle).titles, DataTitle) == Success(wb.active)
  {
    var titles := Retitle(wb, DataTitle).titles;
    assert DataTitle in titles;
    var k := SheetIndex(titles, DataTitle).value;
    assert forall j :: 0 <= j < wb.active ==> titles[j] == wb.titles[..wb.active][j];
    assert forall j :: 0 <= j < k ==> titles[..k][j] == titles[j];
  }

  /** The sheet rows of the cells `main()` writes before the region rows, in
      the order it writes them: the world labels `L1` to `L8`, `L10` and
      `L11` (with `M1` after `L1`), their values `M2` to `M8`, `M10` and
      `M11`, and the ten header cells of row 1. */
  const RowsBeforeRegions: seq<nat> :=
    [1, 1, 2, 3, 4, 5, 6, 7, 8, 10, 11] + [2, 3, 4, 5, 6, 7, 8, 10, 11] + [1, 1, 1, 1, 1, 1, 1, 1, 1, 1]

  /** The highest of `rows`, 0 for none: the worksheet's current row once a
      cell has been touched on each of them, starting from an empty sheet. */
  function Highest(rows: seq<nat>): (h: nat)
    ensures forall k :: 0 <= k < |rows| ==> rows[k] <= h
    ensures |rows| > 0 ==> h in rows
    ensures |rows| == 0 ==> h == 0
  {
    if |rows| == 0 then 0
    else
      var h := Highest(rows[..|rows| - 1]);
      assert rows == rows[..|rows| - 1] + [rows[|rows| - 1]];
      if rows[|rows| - 1] > h then rows[|rows| - 1] else h
  }

  /** Before the rows, the world cells reach down to row 11. */
  lemma HighestBeforeRegions()
    ensures Highest(RowsBeforeRegions) == 11
  {
    var rows := RowsBeforeRegions;
    assert rows[10] == 11;
    assert forall k :: 0 <= k < |rows| ==> rows[k] <= 11;
  }

  /** The row the code colours for region `i`: `ws.cell(row=i + 2, column=1)`. */
  function FillRowAsWritten(i: nat): nat {
    i + 2
  }

  /** The worksheet's current row just before region `i` is appended: the
      highest row touched so far, by the cells before the rows, by the rows
      appended, and by the cells coloured. */
  function CurrentRow(i: nat): (row: nat)
    ensures row == 11 + i
    decreases i, 0
  {
    if i == 0 then
      HighestBeforeRegions();
      Highest(RowsBeforeRegions)
    else
      var touched := [CurrentRow(i - 1), DataRow(i - 1), FillRowAsWritten(i - 1)];
      assert touched[1] == 11 + i && touched[0] < 11 + i && touched[2] < 11 + i;
      Highest(touched)
  }

  /** The row `ws.append` writes region `i` on: the one after the current
      row. The first region lands on row 12, below the world cells, and not
      on row 2 below the header. */
  function DataRow(i: nat): (row: nat)
    ensures row == 12 + i
    decreases i, 1
  {
    CurrentRow(i) + 1
  }

  /** The fills the code leaves in column A, by sheet row: region `i`'s fill
      goes on row `i + 2`, rows 2 up to one past the last region. */
  function FillsAsWritten(regions: seq<Region>): (m: map<nat, Fill>)
    ensures forall row :: row in m ==> 2 <= row < |regions| + 2
    ensures forall i :: 0 <= i < |regions| ==> FillRowAsWritten(i) in m && m[FillRowAsWritten(i)] == RowFill(regions[i])
  {
    map i | 0 <= i < |regions| :: FillRowAsWritten(i) := RowFill(regions[i])
  }

  /** As written no fill lands on its own region's row: the first ten fills
      colour the empty cells `A2` to `A11`, region `j`'s label carries the
      fill of region `j + 10`, and the labels of the last ten regions carry none. */
  lemma FillsMissTheirRows(regions: seq<Region>, j: nat)
    requires j < |regions|
    ensures FillRowAsWritten(j) != DataRow(j)
    ensures j < 10 ==> forall i :: 0 <= i < |regions| ==> DataRow(i) != FillRowAsWritten(j)
    ensures DataRow(j) in FillsAsWritten(regions) <==> j + 10 < |regions|
    ensures j + 10 < |regions| ==> FillsAsWritten(regions)[DataRow(j)] == RowFill(regions[j + 10])
  {
    assert DataRow(j) == FillRowAsWritten(j + 10);
  }

  /** The fills as meant, by sheet row: each region's fill on the row its
      label was appended to. */
  function Fills(regions: seq<Region>): (m: map<nat, Fill>)
    ensures forall i :: 0 <= i < |regions| ==> DataRow(i) in m && m[DataRow(i)] == RowFill(regions[i])
    ensures forall row :: row in m ==> exists i :: 0 <= i < |regions| && row == DataRow(i)
  {
    map i | 0 <= i < |regions| :: DataRow(i) := RowFill(regions[i])
  }

  /** The meant fills are those the report rows carry: the fill on the row
      of region `i` is row `i`'s. */
  lemma FillsFollowRows(regions: seq<Region>, cnations: seq<nat>, i: nat)
    requires IsPrefixSums(regions, cnations)
    requires i < |regions|
    ensures Fills(regions)[DataRow(i)] == Rows(regions, cnations)[i].fill
  {
  }

  /** The saved sheet: its world data cells and its rows. */
  datatype Sheet = Sheet(world: WorldData, rows: seq<Row>)

  /** The report stage as the code runs it once the fills are built: fill
      the world data cells, write the rows, then look the sheet up by
      "Lookout Data". A new workbook has no such sheet, so nothing is ever
      saved; when the major pass takes no time, the stage ends even earlier,
      at `M5`. */
  function PublishAfterFillsAsWritten(s: Survey): (r: Result<Sheet, SheetError>)
    requires IsPrefixSums(s.regions, s.cnations)
    ensures r.Failure?
    ensures s.totalNations > 0 && s.minorLength != 0 ==>
      r.error == (if s.majorLength == 0 then DivisionByZero("M5") else MissingSheet(DataTitle))
  {
    match WorldCellsAsWritten(s)
    case Failure(e) => Failure(e)
    case Success(world) =>
      var rows := Rows(s.regions, s.cnations);
      match SheetIndex(NewWorkbook().titles, DataTitle)
      case Failure(e) => Failure(e)
      case Success(_) => Success(Sheet(world, rows))
  }

  /** The report stage as the code runs it, with `yellowStart` as the start
      colour of the yellow fill: the fills are built before any cell is
      written, so a yellow start that is no colour stops the stage there, and
      any colour lets it go on to the world data cells and the lookup. */
  function PublishAsWrittenWith(s: Survey, yellowStart: string): (r: Result<Sheet, SheetError>)
    requires IsPrefixSums(s.regions, s.cnations)
    ensures !IsColourText(yellowStart) ==> r == Failure(BadColour(yellowStart))
    ensures IsColourText(yellowStart) ==> r == PublishAfterFillsAsWritten(s)
  {
    match BuildPalette(yellowStart)
    case Failure(e) => Failure(e)
    case Success(_) => PublishAfterFillsAsWritten(s)
  }

  /** The report stage as the code runs it: the yellow start colour "FFF00"
      is no colour, so every survey stops at the fills; the later stops of
      `PublishAfterFillsAsWritten` are reached only once that colour is
      corrected. */
  function PublishAsWritten(s: Survey): (r: Result<Sheet, SheetError>)
    requires IsPrefixSums(s.regions, s.cnations)
    ensures r == Failure(BadColour(YellowStartAsWritten))
  {
    assert |YellowStartAsWritten| == 5;
    PublishAsWrittenWith(s, YellowStartAsWritten)
  }

  /** The report stage as meant: the fills built with the yellow fill's own
      colour, the world data cells with a blank `M5` for a major pass of no
      length, the rows, and the sheet found under "Lookout Data" because the
      active sheet was given that title. It fails only when a world data cell
      really has no value. */
  function Publish(s: Survey): (r: Result<Sheet, SheetError>)
    requires IsPrefixSums(s.regions, s.cnations)
    ensures r.Failure? <==> s.totalNations == 0 || s.minorLength == 0
    ensures r.Success? ==> r.value.world == WorldCells(s).value
    ensures r.Success? ==> r.value.rows == Rows(s.regions, s.cnations)
  {
    match FillColours()
    case Failure(e) => Failure(e)
    case Success(_) =>
      match WorldCells(s)
      case Failure(e) => Failure(e)
      case Success(world) =>
        var rows := Rows(s.regions, s.cnations);
        var wb := Retitle(NewWorkbook(), DataTitle);
        RetitledSheetFound(NewWorkbook());
        match SheetIndex(wb.titles, DataTitle)
        case Failure(e) => Failure(e)
        case Success(_) => Success(Sheet(world, rows))
  }
}
